=== FILE: README.md ===
# Webcam captioning: verified model of the capture loop and the caption endpoint

The system captures still frames from a browser webcam at a chosen period and
posts each frame to a Flask endpoint with a text instruction. The endpoint
forwards the frame to a local Ollama model (`gemma3:4b`). It returns the
model's caption and appends a question/answer record to a history file.

This project models the two pieces of deterministic logic in Dafny:

- **The page's capture controller** (`static/js/script.js`), in module
  `Controller`. It is a state machine over `isStreaming`, the held camera
  stream and the capture timer, plus the texts shown in the status line,
  the error area, the response box and on the start/stop button. Every DOM
  callback is a pure function from an immutable `Session` to a new one.
  - `Toggle` is the button handler.
  - `StartWebcam` covers `startWebcam` together with its `getUserMedia`
    outcome.
  - `MetadataLoaded` is the `loadedmetadata` callback.
  - `StartCaptureInterval` arms the timer.
  - `TimerFired` is one firing of that timer.
  - `PeriodChanged` is the select's change handler.
  - `captureFrameAndSend` is split at its `await`. `Tick` is the synchronous
    part up to the request. `ResponseArrived` interprets the `fetch`
    outcome.
- **The `/api/caption` handler** (`app.py`, `get_caption`), in module
  `CaptionServer`. It covers validation with its fixed status codes, prompt
  defaulting and stripping, the Ollama payload, caption normalisation,
  the mapping of upstream failures to replies, and the history record
  (module `History`).

Supporting modules:
- `Text`: trim/strip, `parseInt(_, 10)`, `split` on one character, substring
  search and decimal rendering.
- `Json`: a JSON value and Python truthiness.
- `Exchange`: connects the two sides. The request the page posts is what the
  handler validates, and the handler's reply is what the page shows.

Parameters stand in for everything the code reads from outside:
- the `getUserMedia` outcome;
- the video element's `paused`/`ended`/`readyState`;
- the canvas data URL;
- the instruction textarea and the period select;
- the `fetch` outcome;
- the parsed Flask request;
- the Ollama outcome;
- whether the image and history files could be written;
- the two `strftime` strings.

Behaviour of the code that the model keeps as written:
- `isStreaming` becomes true only in the metadata callback, not when
  `getUserMedia` resolves. The toggle decides on `isStreaming`, so a click
  while the camera is starting calls `startWebcam` again, not stop.
- An invalid period while streaming shows its error and then calls
  `stopWebcam`. That call clears the error, so the page ends up idle with no
  error shown (`StartCaptureInterval`, `MetadataLoaded`).
- A missing MediaDevices API leaves the status at "Error!". Only a rejected
  `getUserMedia` sets "Webcam error!".
- `split(',')[1]` is the second comma-separated field, not everything after
  the first comma (`SecondFieldOf`).
- The server strips the prompt before it checks the image. A `prompt` that is
  present but not a string (JSON `null` included) therefore ends in an
  unhandled exception (Flask's 500), even when `image_data` is missing
  (`NonStringPromptPreemptsImageCheck`).
- A JSON body that is not an object also ends in Flask's 500. An unparsable
  body ends in Flask's own 400.
- `image_filename` is assigned before anything in its `try` block can fail.
  The `'image_filename' in locals()` test is therefore always true, and every
  history record has an `Image:` line.
- When an Ollama error body is JSON but not an object, `.get` raises inside
  the `except` clause. Nothing catches that exception, so the reply is
  Flask's 500.
- Clicking Start twice before the metadata callback replaces the held stream
  without stopping its tracks (see "## Findings"). The session keeps such
  streams in `leaked`. `StartWebcam` models the code as written, and the
  button uses `StartWebcamReleasing`, which stops the replaced stream first.

## Model

| member | source | states |
|---|---|---|
| `Text.Trim` | static/js/script.js:136 | the trimmed instruction has no whitespace at either end, is no longer than the input, and is empty exactly when the input is all whitespace |
| `Text.TrimOf` | app.py:59 | stripping removes exactly the whitespace around a string whose ends are not whitespace, which pins down what strip returns |
| `Text.TrimIdempotent` | app.py:59 | stripping an already-stripped prompt changes nothing |
| `Text.ParseIntDecimal` | static/js/script.js:97 | `parseInt(_, 10)` reads back the decimal text of any natural number, even when non-digit text follows it |
| `Text.ParseIntNoDigits` | static/js/script.js:97-98 | a select value with no decimal digit parses to NaN |
| `Text.ParseIntSigned` | static/js/script.js:97 | `parseInt` skips leading whitespace and reads one sign: whitespace, then `-` or `+`, then a run of digits gives the run's value, negated after `-` |
| `Text.DecimalText` | static/js/script.js:160 | the status number in "Server error: <status>" is rendered as digits with no leading zero, and those digits have the status as their value |
| `Text.Split` | static/js/script.js:127 | `split(',')` yields at least one field, no field contains a comma, and joining the fields with commas gives back the string |
| `Text.SplitJoin` | static/js/script.js:127 | splitting undoes joining for comma-free fields |
| `Text.SecondField` | static/js/script.js:127 | `split(',')[1]` is undefined exactly when the data URL has no comma, and it never contains a comma |
| `Text.SecondFieldOf` | static/js/script.js:127 | the second field is the text between the first and second comma, not everything after the first comma |
| `Text.Contains` | app.py:107 | Python's `t in s` holds exactly when `t` occurs at some position of `s` |
| `Controller.DisplayError` | static/js/script.js:17-22 | the error area shows the message, the status line reads "Error!", and nothing else on the page changes |
| `Controller.ClearError` | static/js/script.js:24-27 | the error area is emptied and hidden; the status line and everything else stay as they were |
| `Controller.ClearAfterDisplay` | static/js/script.js:17-27 | clearing after displaying leaves no trace of the message, only the "Error!" status |
| `Controller.StopTracks` | static/js/script.js:76 | every track of the stream is stopped, and the track list keeps its length and order |
| `Controller.Stop` | static/js/script.js:73-85 | after `stopWebcam`: not streaming, no timer, video detached, every held track stopped, button "Start", status "Idle. Click Start.", error area cleared and hidden, response untouched |
| `Controller.StopIdempotent` | static/js/script.js:73-85 | stopping twice gives the same state as stopping once |
| `Controller.AccessErrorMessage` | static/js/script.js:60-67 | each message is chosen exactly by its error names (permission, not found, in use), and every other name gets "Could not access the webcam." |
| `Controller.StartWebcam` | static/js/script.js:29-71 | starting never sets `isStreaming` or arms a timer, and it empties the response box. A missing API shows the unsupported message with status "Error!". A rejection shows the mapped message with status "Webcam error!" and keeps the stream. Success holds the new stream and waits for metadata; the stream held before becomes unreachable (`leaked`) with its tracks as they were |
| `Controller.RepeatedStartLeavesCameraOn` | static/js/script.js:40 | start (stream A with a live track), start again before A's metadata, metadata, stop: the page is idle with no timer and its `stream` stopped, yet A's track is still live |
| `Controller.StartWebcamReleasing` | static/js/script.js:29-71 | the intended start equals the start as written in every field but `leaked`. On a granted camera, `leaked` gains exactly the stream held before, with its tracks stopped; otherwise it is unchanged. So it never puts a live track out of reach |
| `Controller.RepeatedStartReleasesCamera` | static/js/script.js:40 | the same start, start, metadata, stop sequence with the intended start leaves every stream stopped |
| `Controller.MetadataLoaded` | static/js/script.js:49-57 | with no pending metadata nothing happens. Otherwise the page enters streaming mode (button "Stop", status "Webcam active. Capturing...") and runs exactly `StartCaptureInterval`. With a valid period: timer armed at that period, and a request goes out exactly when the frame is sendable. With an invalid period the session is stopped again: idle, button "Start", no timer, error hidden |
| `Controller.Base64Payload` | static/js/script.js:126-132 | the payload is the second comma field of the data URL, and it is present only when that field exists and is non-empty |
| `Controller.Tick` | static/js/script.js:117-144 | a capture posts a request exactly when streaming and the video is ready, the payload is non-empty and the trimmed prompt is non-empty. It changes nothing when not ready or when the payload is missing. An empty prompt shows "Instruction (Prompt) cannot be empty." with status "Prompt missing!". Control state and the response box never change |
| `Controller.RequestsAreWellFormed` | static/js/script.js:127-155 | every posted request has a non-empty, comma-free image field and a non-empty prompt with no whitespace at its ends |
| `Controller.StartCaptureInterval` | static/js/script.js:95-109 | a valid period arms exactly one timer at that period and captures immediately only when streaming. That capture is exactly `Tick` on the page showing the capture status, so it posts `Tick`'s request and has `Tick`'s effects and no others. An invalid period arms nothing. While streaming it ends in exactly the `stopWebcam` state (error cleared); when not streaming it changes exactly the error area (shown, with the invalid-period message), the status ("Error!") and the timer (none), and nothing else |
| `Controller.RearmIgnoresPreviousTimer` | static/js/script.js:95-96 | re-arming cancels the previous timer first, so the previously armed timer has no influence on the result |
| `Controller.TimerFired` | static/js/script.js:106-108 | a firing posts a request only while a timer is armed and the session is streaming. It never changes control state, and while streaming it is exactly one `Tick` |
| `Controller.PeriodChanged` | static/js/script.js:111-115 | a period change re-arms only while streaming and is a no-op otherwise. While streaming it is exactly `StartCaptureInterval`, so an invalid period stops the session |
| `Controller.Toggle` | static/js/script.js:87-93 | the button calls stop exactly when streaming and start otherwise (the start that releases a replaced stream), and the page is not streaming afterwards |
| `Controller.FailureMessage` | static/js/script.js:157-160 | the response handling throws exactly on a network failure, a body that is not JSON, or a non-ok status. The message thrown for a non-ok status is never empty: `data.error` if truthy, else "Server error: <status>" |
| `Controller.ResponseArrived` | static/js/script.js:157-177 | a network or JSON failure, or a non-ok status, shows "Failed to get caption: <msg>" and "Error: <msg>" with status "Captioning error!". For a non-ok status, msg is `data.error` if truthy, else "Server error: <status>". A truthy caption is shown and clears the error. A missing caption shows the no-caption notice with status "Response issue.". Control state is untouched |
| `Controller.InitialInv` | static/js/script.js:13-15 | the page as loaded satisfies the session invariant |
| `Controller.InitialIsStopped` | static/js/script.js:180 | the page as loaded is exactly what `stopWebcam` leaves when nothing was held or shown |
| `Controller.ApplyPreservesInv` | static/js/script.js:29-178 | every event preserves the invariant, and a request is posted only while streaming. The invariant: a timer runs exactly while streaming, with a period of at least 500 ms; streaming means a stream is held and its metadata has loaded; the button label matches `isStreaming`; a session that is neither streaming nor starting holds no live track; no unreachable stream has a live track |
| `Controller.RunPreservesInv` | static/js/script.js:29-178 | the invariant holds after any sequence of events |
| `Controller.ToggleAsWritten` | static/js/script.js:87-93 | the button as written calls `stopWebcam` exactly when streaming and `startWebcam` otherwise, leaves the page not streaming, and differs from `Toggle` only in the streams it puts out of reach |
| `Controller.ApplyAsWrittenPreservesControlInv` | static/js/script.js:29-178 | on the page as written every event preserves every part of the invariant except the one about streams out of reach, and a request is posted only while streaming |
| `Controller.RunAsWrittenPreservesControlInv` | static/js/script.js:29-178 | on the page as written that part of the invariant holds after any sequence of events |
| `Controller.RunAsWrittenKeepsLeaked` | static/js/script.js:29-93 | on the page as written a stream once out of reach stays out of reach: events only append to the list of such streams |
| `Controller.AsWrittenBreaksOnlyLeakClause` | static/js/script.js:40 | on the page as written, Start, Start, metadata and one more click keep every other part of the invariant but leave the first stream live and out of reach, so the full invariant fails |
| `Controller.IdlePageReleasesCamera` | static/js/script.js:73-85 | from page load, whatever happens (with the releasing start), no unreachable stream has a live track, and a page that is not streaming has no timer. Unless a start is pending, its held stream is stopped too, so the camera is off |
| `History.RuleIsThirtyDashes` | app.py:119 | the separator line is thirty dashes |
| `History.FormatIsLines` | app.py:114-119 | the record `History.Format` writes is its lines joined by line breaks: timestamp, `Q:`, `A:`, optional `Image:`, the dashes, then one empty line |
| `History.ParseFormat` | app.py:112-119 | reading a record `History.Format` wrote back recovers its timestamp, question, answer and image name, provided no field contains a line break |
| `CaptionServer.Validate` | app.py:53-66 | non-JSON gets 415. A falsy image gets 400 "No image data provided" before the prompt check. An empty stripped prompt gets 400 "Prompt is required". A body that is not an object, or a prompt that is not a string, ends in a framework error. An accepted request has a truthy image and a non-empty stripped prompt |
| `CaptionServer.MissingImageRejected` | app.py:58-63 | without `image_data` (`data.get` gives `None`), a body whose prompt is a string or absent is answered 400 "No image data provided" |
| `Json.FalsyValues` | app.py:61 | the falsy JSON values are exactly `null`, `false`, `0`, `""`, `[]` and `{}` |
| `CaptionServer.DefaultPromptUsed` | app.py:59 | with no `prompt` field, the prompt used is "Describe what you see." |
| `CaptionServer.NonStringPromptPreemptsImageCheck` | app.py:59-63 | a present non-string prompt ends in a 500 even when the image is missing |
| `CaptionServer.NormalizeCaption` | app.py:102-109 | the caption is never empty, has no whitespace at its ends and never contains a refusal phrase. It is the stripped reply unless that is empty (then exactly the no-description notice) or contains a refusal phrase (then exactly the model-refused notice) |
| `CaptionServer.RefusalPhraseAnywhere` | app.py:107 | a text is a refusal wherever in it "Sorry, I can't" or "I am unable to" stands |
| `CaptionServer.NoticesAreNotRefusals` | app.py:106-109 | neither replacement notice has whitespace at its ends or contains a refusal phrase |
| `CaptionServer.NormalizeCaptionIdempotent` | app.py:102-109 | normalising a returned caption again leaves it unchanged |
| `CaptionServer.HttpErrorDetail` | app.py:133-137 | the detail is the JSON `error` field when present, else the body text. A non-JSON body gives the text, or the exception text when the body is empty. A non-object JSON body has no detail (the exception escapes) |
| `CaptionServer.FailureReply` | app.py:126-142 | Timeout gives 504 and ConnectionError 503, each with its fixed message. HTTPError keeps the upstream status with "Ollama API error: <detail>". Anything else gives 500 with "An unexpected server error occurred: ". Every JSON error reply is non-empty and in the 4xx/5xx range |
| `CaptionServer.DropLast3` | app.py:71 | `[:-3]` drops the last three characters, or leaves nothing |
| `CaptionServer.ImageFilenameKeepsMilliseconds` | app.py:71-72 | the image file name is `frame_<stamp>.jpg` with the last three digits of the microseconds field cut, i.e. the stamp to the millisecond |
| `CaptionServer.Handle` | app.py:53-124 | Ollama is called exactly for accepted requests, with payload `{model, stripped prompt, [original image value], stream: false}`. A rejected request does nothing else. A caption reply is 200 with a non-empty stripped caption. An error reply is non-2xx with a non-empty message. When Ollama answers, the reply is 200 with the normalised caption of its `response` (empty when absent); any other outcome gets its `FailureReply`. History is appended exactly when Ollama answered and the file is writable, and it is the formatted record of the history timestamp, the stripped prompt, the caption returned and the image file name. A saved image is stored under that file name |
| `CaptionServer.NonJsonRequestDoesNothing` | app.py:53-55 | a non-JSON request gets 415 with the fixed message and nothing is called, saved or written |
| `CaptionServer.ImageSaveIsSwallowed` | app.py:69-85 | decode or save failures change neither the reply, nor the payload, nor the history |
| `CaptionServer.HistoryFailureIsSwallowed` | app.py:112-124 | a failed history write leaves the reply unchanged |
| `CaptionServer.HistoryRecordsExchange` | app.py:112-124 | provided the stripped prompt and the returned caption are single lines, the history record reads back as the timestamp, that prompt, that caption and the frame's file name |
| `Exchange.WellFormedRequestAccepted` | app.py:57-66 | a request with a non-empty image and a non-empty stripped prompt passes validation unchanged |
| `Exchange.CapturedRequestsAreForwarded` | static/js/script.js:146-155 | every request the page posts passes validation, and Ollama receives the frame's base64 field and the page's trimmed instruction |
| `Exchange.OllamaFailureReachesPage` | app.py:126-142 | each way the Ollama call can fail reaches the page as its own text after "Failed to get caption: ": the timeout and connection messages, "Ollama API error: <detail>", "An unexpected server error occurred: <message>", or the page's JSON parse error when Flask renders the error itself. The status is "Captioning error!" |
| `Exchange.ServerReplyReachesPage` | static/js/script.js:157-177 | whatever the handler answers, the page shows either the caption (error cleared) or "Failed to get caption: " plus the handler's error text. The session keeps streaming with its timer |

## Left out

- DOM details: element styling (the `stop-button` class), canvas sizing
  (static/js/script.js:50-51), `drawImage`/`toDataURL` encoding and console
  logging. The data URL is a parameter.
- The text of `Capturing every ${rate / 1000}s...`. It depends on
  floating-point number formatting, so the status is kept as
  `Capturing(rate)`. The rate is `None` when the select value is NaN at
  response time.
- Timing: no `setInterval` timing and no overlap of in-flight `fetch` calls
  as such. Each timer firing and each response is one atomic event. Responses
  may arrive in any order, including after stop.
- `startWebcam` with its `getUserMedia` outcome is one event. A click between
  the two is not modelled.
- `parseInt` beyond 2^53 (JavaScript numbers lose precision there; the model
  uses unbounded integers), and `-0`.
- Unicode whitespace: `trim` and `strip` share one ASCII whitespace set.
  The real sets differ outside ASCII and on a few control characters.
- Client: `data.error` and `data.caption` are modelled as strings only. A
  reply body that is JSON but not an object is covered by what it does. For
  `null`, reading `data.error` or `data.caption` throws a TypeError, which
  behaves as `Malformed` with that error's message. For a number, string,
  boolean or array, both fields are undefined, which is `Parsed(None, None)`:
  a non-ok status then shows "Server error: <status>", and an ok status shows
  the no-caption notice.
- Server: JSON floats. A non-string `error` in an Ollama error body. A 2xx
  Ollama reply that is not an object, or whose `response` is not a string,
  is folded into the `Unexpected` exception case.
- Server I/O: base64 decoding, file writes, `datetime`, logging, the 90 s
  request timeout (only its outcome is modelled), `ensure_dir`, `index` and
  `app.run`.
- `Controller.Toggle`: uses `StartWebcamReleasing`, not the start as
  written, so the event-sequence lemmas (`RunPreservesInv`,
  `IdlePageReleasesCamera`) describe the page with the repeated-start leak
  corrected. The page as written is `ToggleAsWritten` with `RunAsWritten`.
  `RunAsWrittenPreservesControlInv` covers it, and the leak is shown by
  `RepeatedStartLeavesCameraOn` and `AsWrittenBreaksOnlyLeakClause`.

## Findings

| source | as written | input that shows it | evidently intended | confidence | as-written member | corrected member |
|---|---|---|---|---|---|---|
| static/js/script.js:40 | `startWebcam` assigns the new stream over the one held before without stopping that stream's tracks | click Start (granted stream A), click Start again before A's metadata (the button still says "Start"; granted stream B), metadata loads, click Stop: `stopWebcam` stops only B, and A's tracks stay live | a stream the new one replaces is stopped first, so that Stop turns the camera off | medium, not executed | `Controller.RepeatedStartLeavesCameraOn` | `Controller.StartWebcamReleasing` |

=== FILE: controller.dfy ===
/**
 The capture controller of the browser page (static/js/script.js): a state
 machine over `isStreaming`, the held camera stream and the capture timer,
 plus the texts it shows in the status line, the error area, the response
 box and on the start/stop button.

 Every DOM callback is a pure transition on an immutable `Session`. What the
 browser supplies (the `getUserMedia` outcome, the video element's readiness,
 the canvas data URL, the textarea and select values, the `fetch` outcome) is
 a parameter. `captureFrameAndSend` is split at its one `await`: `Tick` is
 the synchronous part up to the request, `ResponseArrived` is the rest.
 */
module Controller {
  import opened Wrappers
  import opened Text

  /* ----------------------------------------------------------------------
     Texts shown by the page
     ---------------------------------------------------------------------- */

  const STATUS_IDLE := "Idle. Click Start."
  const STATUS_INITIALIZING := "Initializing webcam..."
  const STATUS_ERROR := "Error!"
  const STATUS_WEBCAM_ERROR := "Webcam error!"
  const STATUS_ACTIVE := "Webcam active. Capturing..."
  const STATUS_SENDING := "Sending frame..."
  const STATUS_PROMPT_MISSING := "Prompt missing!"
  const STATUS_RESPONSE_ISSUE := "Response issue."
  const STATUS_CAPTION_ERROR := "Captioning error!"

  const LABEL_START := "Start"
  const LABEL_STOP := "Stop"

  const MSG_UNSUPPORTED := "Your browser does not support MediaDevices API. Try a different browser."
  const MSG_ACCESS_FAILED := "Could not access the webcam."
  const MSG_PERMISSION := "Webcam permission denied. Please allow camera access in your browser and system settings, then try again."
  const MSG_NO_WEBCAM := "No webcam found. Ensure a webcam is connected and enabled."
  const MSG_IN_USE := "Webcam is already in use or encountered a hardware error."
  const MSG_INVALID_RATE := "Invalid refresh rate selected. Minimum is 500ms."
  const MSG_EMPTY_PROMPT := "Instruction (Prompt) cannot be empty."
  const MSG_NO_CAPTION := "No caption received or error in response."
  const FAILED_PREFIX := "Failed to get caption: "
  const RESPONSE_ERROR_PREFIX := "Error: "
  const SERVER_ERROR_PREFIX := "Server error: "

  /** The smallest capture period accepted, in milliseconds. */
  const MIN_RATE_MS := 500
  /** `HTMLMediaElement.HAVE_FUTURE_DATA`. */
  const HAVE_FUTURE_DATA := 3

  /* ----------------------------------------------------------------------
     State
     ---------------------------------------------------------------------- */

  datatype Track = Track(id: nat, live: bool)
  datatype MediaStream = MediaStream(id: nat, tracks: seq<Track>)

  /** The status line. `Capturing(rate)` is the text
      "Capturing every <rate / 1000>s..."; `rate` is `None` when the select
      value does not parse (the text then reads "NaN"). */
  datatype Status = Shown(text: string) | Capturing(rate: Option<int>)

  /** The page's mutable variables and the visible state of its widgets.
      `awaitingMetadata` is true while `video.srcObject` holds a stream whose
      `loadedmetadata` callback has not run yet; `timer` is the period of the
      armed `setInterval`, if any. `leaked` holds the streams the `stream`
      variable no longer refers to: nothing on the page can stop their tracks
      any more. */
  datatype Session = Session(
    isStreaming: bool,
    stream: Option<MediaStream>,
    leaked: seq<MediaStream>,
    awaitingMetadata: bool,
    timer: Option<int>,
    status: Status,
    errorText: string,
    errorVisible: bool,
    response: string,
    buttonLabel: string)

  /** The page after `DOMContentLoaded` (the button label comes from the
      page markup). */
  function Initial(): Session {
    Session(false, None, [], false, None, Shown(STATUS_IDLE), [], false, [], LABEL_START)
  }

  /* ----------------------------------------------------------------------
     Inputs from the browser
     ---------------------------------------------------------------------- */

  /** What `getUserMedia` does: the API is missing, it resolves with a
      stream, or it rejects with an error of the given `name`. */
  datatype Acquisition = Unsupported | Granted(stream: MediaStream) | Denied(errorName: string)

  datatype VideoState = VideoState(paused: bool, ended: bool, readyState: int)

  /** What one capture reads from the page: the video element, the canvas's
      `toDataURL` result and the instruction textarea. */
  datatype Frame = Frame(video: VideoState, dataUrl: string, instruction: string)

  /** The JSON body posted to `/api/caption`. */
  datatype CaptionRequest = CaptionRequest(imageData: string, prompt: string)

  /** `response.json()`: a parse failure with its message, or the `error`
      and `caption` fields of the parsed object. */
  datatype ResponseBody = Malformed(message: string) | Parsed(error: Option<string>, caption: Option<string>)

  /** A `fetch` that rejects, or one that resolves with an HTTP status. */
  datatype FetchOutcome = NetworkFailure(message: string) | Received(status: nat, body: ResponseBody)

  /** A transition's new state and the request it posts, if any. */
  datatype Step = Step(session: Session, request: Option<CaptionRequest>)

  /* ----------------------------------------------------------------------
     Error area
     ---------------------------------------------------------------------- */

  /** `displayError`: shows the message in the error area and "Error!" in
      the status line; nothing else on the page changes. */
  function DisplayError(s: Session, message: string): (r: Session)
    ensures r.errorVisible && r.errorText == message && r.status == Shown(STATUS_ERROR)
    ensures SameControl(s, r) && r.response == s.response
  {
    s.(errorText := message, errorVisible := true, status := Shown(STATUS_ERROR))
  }

  /** `clearError`: empties and hides the error area, and leaves the status
      line as it was. */
  function ClearError(s: Session): (r: Session)
    ensures !r.errorVisible && r.errorText == []
    ensures SameControl(s, r) && r.response == s.response && r.status == s.status
  {
    s.(errorText := [], errorVisible := false)
  }

  /** Clearing after displaying leaves only the "Error!" status behind:
      the error area keeps no trace of the message. */
  lemma ClearAfterDisplay(s: Session, message: string)
    ensures ClearError(DisplayError(s, message)) == ClearError(s).(status := Shown(STATUS_ERROR))
  {
  }

  /* ----------------------------------------------------------------------
     Stopping
     ---------------------------------------------------------------------- */

  /** Every track of the stream (if one is held) has been stopped. */
  predicate Released(stream: Option<MediaStream>) {
    stream.None? || forall i :: 0 <= i < |stream.value.tracks| ==> !stream.value.tracks[i].live
  }

  /** Every track of every stream in the list has been stopped. */
  predicate AllReleased(streams: seq<MediaStream>) {
    forall i :: 0 <= i < |streams| ==> Released(Some(streams[i]))
  }

  /** The stream the variable holds, as a list of zero or one streams. */
  function Held(stream: Option<MediaStream>): seq<MediaStream> {
    if stream.Some? then [stream.value] else []
  }

  /** `stream.getTracks().forEach(track => track.stop())`. */
  function StopTracks(tracks: seq<Track>): (r: seq<Track>)
    ensures |r| == |tracks|
    ensures forall i :: 0 <= i < |r| ==> r[i] == tracks[i].(live := false)
  {
    if |tracks| == 0 then []
    else [tracks[0].(live := false)] + StopTracks(tracks[1..])
  }

  function StopStream(stream: Option<MediaStream>): Option<MediaStream> {
    match stream
    case None => None
    case Some(m) => Some(m.(tracks := StopTracks(m.tracks)))
  }

  /** `stopWebcam`: clears the error, stops every track of the held stream
      (the variable keeps the stopped stream), detaches the video, leaves
      streaming mode and cancels the timer. */
  function Stop(s: Session): (r: Session)
    ensures !r.isStreaming && r.timer.None? && !r.awaitingMetadata
    ensures Released(r.stream)
    ensures r.stream.Some? <==> s.stream.Some?
    ensures r.stream.Some? ==> r.stream.value.id == s.stream.value.id
                               && |r.stream.value.tracks| == |s.stream.value.tracks|
    ensures r.buttonLabel == LABEL_START && r.status == Shown(STATUS_IDLE)
    ensures r.errorText == [] && !r.errorVisible
    ensures r.response == s.response && r.leaked == s.leaked
  {
    ClearError(s).(
      stream := StopStream(s.stream),
      awaitingMetadata := false,
      isStreaming := false,
      buttonLabel := LABEL_START,
      status := Shown(STATUS_IDLE),
      timer := None)
  }

  /** Stopping a stopped session changes nothing. */
  lemma StopIdempotent(s: Session)
    ensures Stop(Stop(s)) == Stop(s)
  {
    if s.stream.Some? {
      var ts := StopTracks(s.stream.value.tracks);
      assert StopTracks(ts) == ts;
    }
  }

  /* ----------------------------------------------------------------------
     Starting
     ---------------------------------------------------------------------- */

  /** The message for a `getUserMedia` rejection, by the error's name. */
  function AccessErrorMessage(name: string): (msg: string)
    ensures msg == MSG_PERMISSION <==> name == "NotAllowedError" || name == "PermissionDeniedError"
    ensures msg == MSG_NO_WEBCAM <==> name == "NotFoundError" || name == "DevicesNotFoundError"
    ensures msg == MSG_IN_USE <==> name == "NotReadableError" || name == "TrackStartError"
    ensures msg == MSG_ACCESS_FAILED <==>
              name !in {"NotAllowedError", "PermissionDeniedError", "NotFoundError",
                        "DevicesNotFoundError", "NotReadableError", "TrackStartError"}
  {
    if name == "NotAllowedError" || name == "PermissionDeniedError" then MSG_PERMISSION
    else if name == "NotFoundError" || name == "DevicesNotFoundError" then MSG_NO_WEBCAM
    else if name == "NotReadableError" || name == "TrackStartError" then MSG_IN_USE
    else MSG_ACCESS_FAILED
  }

  /** `startWebcam` together with the outcome of its `getUserMedia` call,
      as written. Success only attaches the stream (streaming begins in the
      metadata callback), and it overwrites the `stream` variable without
      stopping the stream held before, which is then out of reach. */
  function StartWebcam(s: Session, acquisition: Acquisition): (r: Session)
    ensures r.isStreaming == s.isStreaming && r.timer == s.timer && r.buttonLabel == s.buttonLabel
    ensures r.response == []
    ensures acquisition.Unsupported? ==>
              r.stream == s.stream && r.awaitingMetadata == s.awaitingMetadata && r.leaked == s.leaked
              && r.errorVisible && r.errorText == MSG_UNSUPPORTED && r.status == Shown(STATUS_ERROR)
    ensures acquisition.Denied? ==>
              r.stream == s.stream && r.awaitingMetadata == s.awaitingMetadata && r.leaked == s.leaked
              && r.errorVisible && r.errorText == AccessErrorMessage(acquisition.errorName)
              && r.status == Shown(STATUS_WEBCAM_ERROR)
    ensures acquisition.Granted? ==>
              r.stream == Some(acquisition.stream) && r.awaitingMetadata
              && r.leaked == s.leaked + Held(s.stream)
              && !r.errorVisible && r.errorText == [] && r.status == Shown(STATUS_INITIALIZING)
  {
    var initializing := ClearError(s).(status := Shown(STATUS_INITIALIZING), response := []);
    match acquisition
    case Unsupported =>
      DisplayError(initializing, MSG_UNSUPPORTED)
    case Denied(name) =>
      DisplayError(initializing, AccessErrorMessage(name)).(status := Shown(STATUS_WEBCAM_ERROR))
    case Granted(m) =>
      initializing.(stream := Some(m), awaitingMetadata := true, leaked := s.leaked + Held(s.stream))
  }

  /** Start, then start again before the first stream's metadata arrives,
      then stop: `startWebcam` as written leaves the first stream's tracks
      running although the page is idle and `stopWebcam` has run. */
  lemma RepeatedStartLeavesCameraOn(a: MediaStream, b: MediaStream, rateValue: string, f: Frame)
    requires |a.tracks| > 0 && a.tracks[0].live
    ensures var s := Stop(MetadataLoaded(StartWebcam(StartWebcam(Initial(), Granted(a)), Granted(b)), rateValue, f).session);
            !s.isStreaming && s.timer.None? && Released(s.stream) && s.leaked == [a] && !AllReleased(s.leaked)
  {
    var s1 := StartWebcam(Initial(), Granted(a));
    var s2 := StartWebcam(s1, Granted(b));
    assert s2.leaked == [a];
    var s := Stop(MetadataLoaded(s2, rateValue, f).session);
    assert s.leaked == [a];
    assert !Released(Some(s.leaked[0]));
  }

  /** `startWebcam` as evidently intended: a stream the new one replaces is
      stopped first. It differs from the code as written only in the tracks
      of the replaced stream, and it never puts a live track out of reach. */
  function StartWebcamReleasing(s: Session, acquisition: Acquisition): (r: Session)
    ensures r == StartWebcam(s, acquisition).(leaked := r.leaked)
    ensures |r.leaked| == |StartWebcam(s, acquisition).leaked|
    ensures AllReleased(s.leaked) ==> AllReleased(r.leaked)
    ensures r.leaked == s.leaked + (if acquisition.Granted? then Held(StopStream(s.stream)) else [])
  {
    if acquisition.Granted? then
      var r := StartWebcam(s.(stream := StopStream(s.stream)), acquisition);
      assert AllReleased(s.leaked) ==> AllReleased(r.leaked) by {
        if AllReleased(s.leaked) && s.stream.Some? {
          assert r.leaked == s.leaked + [StopStream(s.stream).value];
        }
      }
      r
    else StartWebcam(s, acquisition)
  }

  /** The same sequence with the intended start turns the camera off. */
  lemma RepeatedStartReleasesCamera(a: MediaStream, b: MediaStream, rateValue: string, f: Frame)
    ensures var s := Stop(MetadataLoaded(StartWebcamReleasing(StartWebcamReleasing(Initial(), Granted(a)), Granted(b)), rateValue, f).session);
            !s.isStreaming && s.timer.None? && Released(s.stream) && |s.leaked| == 1 && AllReleased(s.leaked)
  {
  }

  /* ----------------------------------------------------------------------
     One capture (`captureFrameAndSend` up to its request)
     ---------------------------------------------------------------------- */

  /** The video is playing and has data for the current and next frame. */
  predicate Ready(v: VideoState) {
    !v.paused && !v.ended && v.readyState >= HAVE_FUTURE_DATA
  }

  /** `dataUrl.split(',')[1]` when it is truthy, i.e. present and non-empty. */
  function Base64Payload(dataUrl: string): (r: Option<string>)
    ensures r.Some? <==> SecondField(dataUrl).Some? && SecondField(dataUrl).value != []
    ensures r.Some? ==> r.value == SecondField(dataUrl).value
  {
    match SecondField(dataUrl)
    case Some(f) => if f == [] then None else Some(f)
    case None => None
  }

  /** A capture from this frame gets as far as posting a request. */
  predicate WouldSend(f: Frame) {
    Ready(f.video) && Base64Payload(f.dataUrl).Some? && Trim(f.instruction) != []
  }

  /** The request such a capture posts. */
  function RequestFor(f: Frame): CaptionRequest
    requires WouldSend(f)
  {
    CaptionRequest(Base64Payload(f.dataUrl).value, Trim(f.instruction))
  }

  /** The fields a capture or a response never touches. */
  predicate SameControl(s: Session, r: Session) {
    r.isStreaming == s.isStreaming && r.stream == s.stream && r.leaked == s.leaked
    && r.awaitingMetadata == s.awaitingMetadata && r.timer == s.timer && r.buttonLabel == s.buttonLabel
  }

  /** The synchronous part of `captureFrameAndSend`. */
  function Tick(s: Session, f: Frame): (r: Step)
    ensures SameControl(s, r.session) && r.session.response == s.response
    ensures r.request.Some? <==> s.isStreaming && WouldSend(f)
    ensures r.request.Some? ==> r.request.value == RequestFor(f)
                                && r.session == s.(status := Shown(STATUS_SENDING))
    ensures !s.isStreaming || !Ready(f.video) || Base64Payload(f.dataUrl).None? ==> r.session == s
    ensures s.isStreaming && Ready(f.video) && Base64Payload(f.dataUrl).Some? && Trim(f.instruction) == [] ==>
              r.session.errorVisible && r.session.errorText == MSG_EMPTY_PROMPT
              && r.session.status == Shown(STATUS_PROMPT_MISSING)
  {
    if !s.isStreaming || !Ready(f.video) then Step(s, None)
    else match Base64Payload(f.dataUrl)
      case None => Step(s, None)
      case Some(image) =>
        var sending := s.(status := Shown(STATUS_SENDING));
        var prompt := Trim(f.instruction);
        if prompt == [] then
          Step(DisplayError(sending, MSG_EMPTY_PROMPT).(status := Shown(STATUS_PROMPT_MISSING)), None)
        else
          Step(sending, Some(CaptionRequest(image, prompt)))
  }

  /** Every request a capture posts carries a non-empty base64 field without
      commas and a non-empty prompt with no whitespace at its ends. */
  lemma RequestsAreWellFormed(s: Session, f: Frame)
    requires Tick(s, f).request.Some?
    ensures var q := Tick(s, f).request.value;
            q.imageData != [] && ',' !in q.imageData && q.prompt != [] && Trimmed(q.prompt)
  {
  }

  /* ----------------------------------------------------------------------
     The capture timer
     ---------------------------------------------------------------------- */

  /** The select value parses to a period of at least 500 ms. */
  predicate ValidRate(rateValue: string) {
    ParseInt(rateValue).Some? && ParseInt(rateValue).value >= MIN_RATE_MS
  }

  /** `startCaptureInterval`: cancel the timer, validate the period, then
      announce it, capture once if streaming and arm the timer. */
  function StartCaptureInterval(s: Session, rateValue: string, f: Frame): (r: Step)
    ensures ValidRate(rateValue) ==> r.session.timer == Some(ParseInt(rateValue).value)
    ensures !ValidRate(rateValue) ==> r.session.timer.None? && r.request.None?
    ensures !ValidRate(rateValue) && s.isStreaming ==> r.session == Stop(s)
    ensures !ValidRate(rateValue) && !s.isStreaming ==>
              !r.session.isStreaming && r.session.errorVisible && r.session.errorText == MSG_INVALID_RATE
              && r.session.status == Shown(STATUS_ERROR)
    ensures !ValidRate(rateValue) && !s.isStreaming ==>
              r.session == s.(timer := None, errorText := MSG_INVALID_RATE, errorVisible := true,
                              status := Shown(STATUS_ERROR))
    ensures ValidRate(rateValue) ==>
              r.session.isStreaming == s.isStreaming && r.session.stream == s.stream
              && r.session.awaitingMetadata == s.awaitingMetadata && r.session.buttonLabel == s.buttonLabel
    ensures ValidRate(rateValue) ==> (r.request.Some? <==> s.isStreaming && WouldSend(f))
    ensures r.request.Some? ==> r.request.value == RequestFor(f)
    ensures ValidRate(rateValue) && !s.isStreaming ==>
              r.session == s.(timer := Some(ParseInt(rateValue).value), status := Capturing(ParseInt(rateValue)))
    ensures ValidRate(rateValue) && s.isStreaming ==>
              var t := Tick(s.(status := Capturing(ParseInt(rateValue))), f);
              r == Step(t.session.(timer := Some(ParseInt(rateValue).value)), t.request)
  {
    var cleared := s.(timer := None);
    var rate := ParseInt(rateValue);
    if rate.None? || rate.value < MIN_RATE_MS then
      var shown := DisplayError(cleared, MSG_INVALID_RATE);
      Step(if s.isStreaming then Stop(shown) else shown, None)
    else
      var announced := cleared.(status := Capturing(rate));
      var first := if announced.isStreaming then Tick(announced, f) else Step(announced, None);
      Step(first.session.(timer := Some(rate.value)), first.request)
  }

  /** Re-arming cancels the previous timer first: what was armed before has
      no influence on the outcome. */
  lemma RearmIgnoresPreviousTimer(s: Session, previous: Option<int>, rateValue: string, f: Frame)
    ensures StartCaptureInterval(s.(timer := previous), rateValue, f) == StartCaptureInterval(s, rateValue, f)
  {
  }

  /** One firing of the `setInterval` callback: capture only if a timer is
      armed and the session is still streaming. */
  function TimerFired(s: Session, f: Frame): (r: Step)
    ensures SameControl(s, r.session)
    ensures r.request.Some? <==> s.timer.Some? && s.isStreaming && WouldSend(f)
    ensures s.timer.None? || !s.isStreaming ==> r.session == s
    ensures s.timer.Some? && s.isStreaming ==> r == Tick(s, f)
  {
    if s.timer.None? then Step(s, None)
    else if s.isStreaming then Tick(s, f)
    else Step(s, None)
  }

  /** The select's `change` handler: re-arm only while streaming. */
  function PeriodChanged(s: Session, rateValue: string, f: Frame): (r: Step)
    ensures !s.isStreaming ==> r == Step(s, None)
    ensures s.isStreaming && ValidRate(rateValue) ==>
              r.session.isStreaming && r.session.timer == Some(ParseInt(rateValue).value)
    ensures s.isStreaming && !ValidRate(rateValue) ==> r.session == Stop(s)
    ensures r.request.Some? <==> s.isStreaming && ValidRate(rateValue) && WouldSend(f)
    ensures s.isStreaming ==> r == StartCaptureInterval(s, rateValue, f)
  {
    if s.isStreaming then StartCaptureInterval(s, rateValue, f) else Step(s, None)
  }

  /* ----------------------------------------------------------------------
     Session start and toggle
     ---------------------------------------------------------------------- */

  /** The `loadedmetadata` callback: streaming begins and the timer is armed.
      With an invalid period the session is stopped again at once. */
  function MetadataLoaded(s: Session, rateValue: string, f: Frame): (r: Step)
    ensures !s.awaitingMetadata ==> r == Step(s, None)
    ensures s.awaitingMetadata && ValidRate(rateValue) ==>
              r.session.isStreaming && !r.session.awaitingMetadata && r.session.stream == s.stream
              && r.session.buttonLabel == LABEL_STOP && r.session.timer == Some(ParseInt(rateValue).value)
              && (r.request.Some? <==> WouldSend(f))
    ensures s.awaitingMetadata && !ValidRate(rateValue) ==>
              r.request.None? && !r.session.isStreaming && r.session.timer.None?
              && Released(r.session.stream) && !r.session.errorVisible
              && r.session.status == Shown(STATUS_IDLE) && r.session.buttonLabel == LABEL_START
    ensures s.awaitingMetadata ==>
              r == StartCaptureInterval(s.(awaitingMetadata := false, isStreaming := true, buttonLabel := LABEL_STOP,
                                           status := Shown(STATUS_ACTIVE)), rateValue, f)
  {
    if !s.awaitingMetadata then Step(s, None)
    else
      var active := s.(awaitingMetadata := false, isStreaming := true, buttonLabel := LABEL_STOP,
                       status := Shown(STATUS_ACTIVE));
      StartCaptureInterval(active, rateValue, f)
  }

  /** The start/stop button: stop exactly when streaming, start otherwise.
      Either way the session is not streaming afterwards. The start is the
      one that releases a replaced stream (see `StartWebcamReleasing`). */
  function Toggle(s: Session, acquisition: Acquisition): (r: Session)
    ensures !r.isStreaming
    ensures s.isStreaming ==> r == Stop(s)
    ensures !s.isStreaming ==> r == StartWebcamReleasing(s, acquisition)
  {
    if s.isStreaming then Stop(s) else StartWebcamReleasing(s, acquisition)
  }

  /** The button handler as written: it calls `startWebcam` itself, so it
      differs from `Toggle` only in the streams it puts out of reach. */
  function ToggleAsWritten(s: Session, acquisition: Acquisition): (r: Session)
    ensures !r.isStreaming
    ensures r == Toggle(s, acquisition).(leaked := r.leaked)
    ensures s.isStreaming ==> r == Stop(s)
    ensures !s.isStreaming ==> r == StartWebcam(s, acquisition)
  {
    if s.isStreaming then Stop(s) else StartWebcam(s, acquisition)
  }

  /* ----------------------------------------------------------------------
     The response to a posted frame
     ---------------------------------------------------------------------- */

  /** `response.ok`. */
  predicate IsOk(status: nat) {
    200 <= status <= 299
  }

  /** A JavaScript string value that is truthy. */
  predicate Present(field: Option<string>) {
    field.Some? && field.value != []
  }

  /** The message of the error the response handling throws or catches,
      `None` when it completes normally. */
  function FailureMessage(outcome: FetchOutcome): (r: Option<string>)
    ensures r.None? <==> outcome.Received? && outcome.body.Parsed? && IsOk(outcome.status)
    ensures outcome.NetworkFailure? ==> r == Some(outcome.message)
    ensures outcome.Received? && outcome.body.Malformed? ==> r == Some(outcome.body.message)
    ensures outcome.Received? && outcome.body.Parsed? && !IsOk(outcome.status) ==>
              r.Some? && r.value != []
              && (Present(outcome.body.error) ==> r == outcome.body.error)
              && (!Present(outcome.body.error) ==> r.value == SERVER_ERROR_PREFIX + DecimalText(outcome.status))
  {
    match outcome
    case NetworkFailure(m) => Some(m)
    case Received(_, Malformed(m)) => Some(m)
    case Received(status, Parsed(error, _)) =>
      if IsOk(status) then None
      else if Present(error) then error
      else Some(SERVER_ERROR_PREFIX + DecimalText(status))
  }

  /** The rest of `captureFrameAndSend` once `fetch` settles. It runs
      whatever the session has done meanwhile (last writer wins). */
  function ResponseArrived(s: Session, outcome: FetchOutcome, rateValue: string): (r: Session)
    ensures SameControl(s, r)
    ensures outcome.NetworkFailure? || outcome.body.Malformed? ==>
              var m := if outcome.NetworkFailure? then outcome.message else outcome.body.message;
              r.errorVisible && r.errorText == FAILED_PREFIX + m && r.response == RESPONSE_ERROR_PREFIX + m
              && r.status == Shown(STATUS_CAPTION_ERROR)
    ensures outcome.Received? && outcome.body.Parsed? && !IsOk(outcome.status) ==>
              var m := if Present(outcome.body.error) then outcome.body.error.value
                       else SERVER_ERROR_PREFIX + DecimalText(outcome.status);
              r.errorVisible && r.errorText == FAILED_PREFIX + m && r.response == RESPONSE_ERROR_PREFIX + m
              && r.status == Shown(STATUS_CAPTION_ERROR)
    ensures outcome.Received? && outcome.body.Parsed? && IsOk(outcome.status) && Present(outcome.body.caption) ==>
              r.response == outcome.body.caption.value && !r.errorVisible && r.errorText == []
              && r.status == Capturing(ParseInt(rateValue))
    ensures outcome.Received? && outcome.body.Parsed? && IsOk(outcome.status) && !Present(outcome.body.caption) ==>
              r == s.(response := MSG_NO_CAPTION, status := Shown(STATUS_RESPONSE_ISSUE))
  {
    match FailureMessage(outcome)
    case Some(m) =>
      DisplayError(s, FAILED_PREFIX + m).(response := RESPONSE_ERROR_PREFIX + m, status := Shown(STATUS_CAPTION_ERROR))
    case None =>
      var caption := outcome.body.caption;
      if Present(caption) then
        ClearError(s.(response := caption.value, status := Capturing(ParseInt(rateValue))))
      else
        s.(response := MSG_NO_CAPTION, status := Shown(STATUS_RESPONSE_ISSUE))
  }

  /* ----------------------------------------------------------------------
     Event sequences and the session invariant
     ---------------------------------------------------------------------- */

  datatype Event =
    | OnToggle(acquisition: Acquisition)
    | OnMetadata(rateValue: string, frame: Frame)
    | OnTimer(frame: Frame)
    | OnPeriodChange(rateValue: string, frame: Frame)
    | OnResponse(outcome: FetchOutcome, rateValue: string)

  function Apply(s: Session, e: Event): Step {
    match e
    case OnToggle(a) => Step(Toggle(s, a), None)
    case OnMetadata(v, f) => MetadataLoaded(s, v, f)
    case OnTimer(f) => TimerFired(s, f)
    case OnPeriodChange(v, f) => PeriodChanged(s, v, f)
    case OnResponse(o, v) => Step(ResponseArrived(s, o, v), None)
  }

  /** The session after a sequence of events, first event first. */
  function Run(s: Session, events: seq<Event>): Session
    decreases |events|
  {
    if |events| == 0 then s else Run(Apply(s, events[0]).session, events[1..])
  }

  /** `Apply` with the button handler as written. */
  function ApplyAsWritten(s: Session, e: Event): Step {
    match e
    case OnToggle(a) => Step(ToggleAsWritten(s, a), None)
    case _ => Apply(s, e)
  }

  /** `Run` with the button handler as written. */
  function RunAsWritten(s: Session, events: seq<Event>): Session
    decreases |events|
  {
    if |events| == 0 then s else RunAsWritten(ApplyAsWritten(s, events[0]).session, events[1..])
  }

  /** What the page as written keeps in every state it can reach: a timer
      runs exactly while streaming, with a valid period; streaming means a
      stream is held and its metadata has loaded; the button says what a
      click will do; and a session that is neither streaming nor starting
      holds no live track. */
  predicate ControlInv(s: Session) {
    && (s.timer.Some? <==> s.isStreaming)
    && (s.timer.Some? ==> s.timer.value >= MIN_RATE_MS)
    && (s.isStreaming ==> s.stream.Some? && !s.awaitingMetadata)
    && (s.awaitingMetadata ==> s.stream.Some?)
    && s.buttonLabel == (if s.isStreaming then LABEL_STOP else LABEL_START)
    && (!s.isStreaming && !s.awaitingMetadata ==> Released(s.stream))
  }

  /** With the releasing start, in addition no stream out of the page's
      reach has a live track. */
  predicate Inv(s: Session) {
    ControlInv(s) && AllReleased(s.leaked)
  }

  lemma InitialInv()
    ensures Inv(Initial())
  {
  }

  /** The page as loaded is exactly what `stopWebcam` leaves behind when
      nothing was ever held or shown. */
  lemma InitialIsStopped()
    ensures Stop(Initial()) == Initial()
  {
  }

  /** Every event preserves the invariant, and requests are only posted
      while streaming. */
  lemma ApplyPreservesInv(s: Session, e: Event)
    requires Inv(s)
    ensures Inv(Apply(s, e).session)
    ensures Apply(s, e).request.Some? ==> Apply(s, e).session.isStreaming
  {
  }

  lemma {:induction false} RunPreservesInv(s: Session, events: seq<Event>)
    requires Inv(s)
    ensures Inv(Run(s, events))
    decreases |events|
  {
    if |events| > 0 {
      ApplyPreservesInv(s, events[0]);
      RunPreservesInv(Apply(s, events[0]).session, events[1..]);
    }
  }

  /** The button handler as written keeps every part of the invariant but
      the one about streams out of reach. */
  lemma ApplyAsWrittenPreservesControlInv(s: Session, e: Event)
    requires ControlInv(s)
    ensures ControlInv(ApplyAsWritten(s, e).session)
    ensures ApplyAsWritten(s, e).request.Some? ==> ApplyAsWritten(s, e).session.isStreaming
  {
  }

  lemma {:induction false} RunAsWrittenPreservesControlInv(s: Session, events: seq<Event>)
    requires ControlInv(s)
    ensures ControlInv(RunAsWritten(s, events))
    decreases |events|
  {
    if |events| > 0 {
      ApplyAsWrittenPreservesControlInv(s, events[0]);
      RunAsWrittenPreservesControlInv(ApplyAsWritten(s, events[0]).session, events[1..]);
    }
  }

  /** On the page as written the clause about streams out of reach is the
      one that fails: two clicks on Start before the metadata arrives, then
      the metadata and one more click, keep the rest of the invariant but
      leave the first stream live where nothing can reach it. */
  lemma AsWrittenBreaksOnlyLeakClause(a: MediaStream, b: MediaStream, rateValue: string, f: Frame, c: Acquisition)
    requires |a.tracks| > 0 && a.tracks[0].live
    ensures var s := RunAsWritten(Initial(), [OnToggle(Granted(a)), OnToggle(Granted(b)), OnMetadata(rateValue, f), OnToggle(c)]);
            ControlInv(s) && !Inv(s)
  {
    var e0, e1, e2, e3 := OnToggle(Granted(a)), OnToggle(Granted(b)), OnMetadata(rateValue, f), OnToggle(c);
    var s2 := TwoStartsLeakFirst(a, b);
    assert [e0, e1, e2, e3] == [e0, e1] + [e2, e3];
    var s := RunAsWritten(s2, [e2, e3]);
    RunAsWrittenKeepsLeaked(s2, [e2, e3]);
    assert !Released(Some(s.leaked[0]));
    RunAsWrittenPreservesControlInv(Initial(), [e0, e1, e2, e3]);
  }

  /** The first two clicks of that sequence, which put the first stream out
      of reach. */
  lemma TwoStartsLeakFirst(a: MediaStream, b: MediaStream) returns (s2: Session)
    ensures s2.leaked == [a]
    ensures forall rest :: RunAsWritten(Initial(), [OnToggle(Granted(a)), OnToggle(Granted(b))] + rest)
                           == RunAsWritten(s2, rest)
  {
    var e0, e1 := OnToggle(Granted(a)), OnToggle(Granted(b));
    var s1 := ApplyAsWritten(Initial(), e0).session;
    s2 := ApplyAsWritten(s1, e1).session;
    forall rest: seq<Event> ensures RunAsWritten(Initial(), [e0, e1] + rest) == RunAsWritten(s2, rest) {
      assert [e0, e1] + rest == [e0] + ([e1] + rest);
      RunAsWrittenStep(Initial(), e0, [e1] + rest);
      RunAsWrittenStep(s1, e1, rest);
    }
  }

  /** A stream once out of reach stays out of reach: events only ever
      append to `leaked`. */
  lemma ApplyAsWrittenKeepsLeaked(s: Session, e: Event)
    ensures var r := ApplyAsWritten(s, e).session;
            |s.leaked| <= |r.leaked| && r.leaked[..|s.leaked|] == s.leaked
  {
  }

  lemma {:induction false} RunAsWrittenKeepsLeaked(s: Session, events: seq<Event>)
    ensures var r := RunAsWritten(s, events);
            |s.leaked| <= |r.leaked| && r.leaked[..|s.leaked|] == s.leaked
    decreases |events|
  {
    if |events| > 0 {
      var t := ApplyAsWritten(s, events[0]).session;
      ApplyAsWrittenKeepsLeaked(s, events[0]);
      RunAsWrittenKeepsLeaked(t, events[1..]);
      var r := RunAsWritten(t, events[1..]);
      assert r.leaked[..|s.leaked|] == r.leaked[..|t.leaked|][..|s.leaked|];
    }
  }

  lemma RunAsWrittenStep(s: Session, e: Event, rest: seq<Event>)
    ensures RunAsWritten(s, [e] + rest) == RunAsWritten(ApplyAsWritten(s, e).session, rest)
  {
    assert ([e] + rest)[1..] == rest;
  }

  /** From page load, whatever happens, no timer runs while the page is not
      streaming, every stream the page can no longer reach is stopped, and a
      page that is neither streaming nor starting has stopped the stream it
      holds: the camera is off. */
  lemma IdlePageReleasesCamera(events: seq<Event>)
    ensures var s := Run(Initial(), events);
            && AllReleased(s.leaked)
            && (!s.isStreaming ==> s.timer.None? && (!s.awaitingMetadata ==> Released(s.stream)))
  {
    InitialInv();
    RunPreservesInv(Initial(), events);
  }
}

=== FILE: exchange.dfy ===
/**
 The page and the server together: the request a capture posts is what the
 handler validates, and the handler's reply is what the page interprets.
 */
module Exchange {
  import opened Wrappers
  import opened Text
  import opened Json
  import C = Controller
  import S = CaptionServer

  /** The body `captureFrameAndSend` posts, as the server's `get_json()`
      reads it. */
  function ToIncoming(q: C.CaptionRequest): S.Incoming {
    S.Incoming(true, Some(JObject(map["image_data" := JString(q.imageData), "prompt" := JString(q.prompt)])))
  }

  /** What the page's `fetch` sees for a server reply: the fields of a JSON
      reply, or, for an error page Flask renders itself, a JSON parse failure
      with the given message. */
  function ToFetch(reply: S.Reply, parseError: string): C.FetchOutcome {
    match reply
    case JsonReply(status, ErrorBody(e)) => C.Received(status, C.Parsed(Some(e), None))
    case JsonReply(status, CaptionBody(c)) => C.Received(status, C.Parsed(None, Some(c)))
    case FrameworkError(status) => C.Received(status, C.Malformed(parseError))
  }

  /** A request with a non-empty image field and a non-empty prompt that
      has no whitespace at its ends passes the server's validation as is. */
  lemma WellFormedRequestAccepted(q: C.CaptionRequest)
    requires q.imageData != [] && q.prompt != [] && Trimmed(q.prompt)
    ensures S.Validate(ToIncoming(q)) == S.Accepted(JString(q.imageData), q.prompt)
  {
    assert [] + q.prompt + [] == q.prompt;
    TrimOf([], q.prompt, []);
    var fields := map["image_data" := JString(q.imageData), "prompt" := JString(q.prompt)];
    assert S.ImageField(fields) == JString(q.imageData);
    assert S.PromptField(fields) == JString(q.prompt);
  }

  /** Every request a capture posts passes the server's validation, and the
      server forwards to Ollama exactly the frame's base64 field and the
      page's trimmed instruction (stripping it again changes nothing). */
  lemma CapturedRequestsAreForwarded(s: C.Session, f: C.Frame, env: S.Environment)
    requires C.Tick(s, f).request.Some?
    ensures var q := C.Tick(s, f).request.value;
            S.Validate(ToIncoming(q)) == S.Accepted(JString(q.imageData), q.prompt)
    ensures var out := S.Handle(ToIncoming(C.Tick(s, f).request.value), env);
            out.payload == Some(S.Payload(S.MODEL, Trim(f.instruction),
                                          [JString(C.Base64Payload(f.dataUrl).value)], false))
  {
    var q := C.Tick(s, f).request.value;
    C.RequestsAreWellFormed(s, f);
    WellFormedRequestAccepted(q);
    assert q == C.RequestFor(f);
  }

  /** Whatever the server answers, the page ends up showing it: a caption
      in the response box with the error area cleared, or the server's error
      text after "Failed to get caption: ". The session itself (streaming,
      stream, timer, button) is left as it was. */
  lemma ServerReplyReachesPage(s: C.Session, req: S.Incoming, env: S.Environment,
                               parseError: string, rateValue: string)
    requires S.WellFormedUpstream(env.upstream)
    ensures var out := S.Handle(req, env);
            var r := C.ResponseArrived(s, ToFetch(out.reply, parseError), rateValue);
            && C.SameControl(s, r)
            && (out.reply.JsonReply? && out.reply.body.CaptionBody? ==>
                  r.response == out.reply.body.caption && !r.errorVisible
                  && r.status == C.Capturing(ParseInt(rateValue)))
            && (out.reply.JsonReply? && out.reply.body.ErrorBody? ==>
                  r.errorVisible && r.errorText == C.FAILED_PREFIX + out.reply.body.error
                  && r.response == C.RESPONSE_ERROR_PREFIX + out.reply.body.error
                  && r.status == C.Shown(C.STATUS_CAPTION_ERROR))
            && (out.reply.FrameworkError? ==>
                  r.errorVisible && r.errorText == C.FAILED_PREFIX + parseError)
  {
    var out := S.Handle(req, env);
    if out.reply.JsonReply? && out.reply.body.ErrorBody? {
      assert !C.IsOk(out.reply.status);
      assert C.Present(Some(out.reply.body.error));
    }
  }

  /** Each way the call to Ollama can fail reaches the page as its own
      message after "Failed to get caption: ", with status "Captioning
      error!"; an error page Flask renders itself shows the page's JSON
      parse failure instead. */
  lemma OllamaFailureReachesPage(s: C.Session, req: S.Incoming, env: S.Environment,
                                 parseError: string, rateValue: string)
    requires S.Validate(req).Accepted? && !env.upstream.Answered? && S.WellFormedUpstream(env.upstream)
    ensures var r := C.ResponseArrived(s, ToFetch(S.Handle(req, env).reply, parseError), rateValue);
            var u := env.upstream;
            && C.SameControl(s, r) && r.errorVisible && r.status == C.Shown(C.STATUS_CAPTION_ERROR)
            && (u.Timeout? ==> r.errorText == C.FAILED_PREFIX + S.ERR_TIMEOUT)
            && (u.ConnectionFailed? ==> r.errorText == C.FAILED_PREFIX + S.ERR_CONNECTION)
            && (u.HttpError? && !u.body.JsonOtherBody? ==>
                  r.errorText == C.FAILED_PREFIX + (S.ERR_OLLAMA_PREFIX + S.HttpErrorDetail(u.body, u.text, u.exceptionText).value))
            && (u.HttpError? && u.body.JsonOtherBody? ==> r.errorText == C.FAILED_PREFIX + parseError)
            && (u.Unexpected? ==> r.errorText == C.FAILED_PREFIX + (S.ERR_UNEXPECTED_PREFIX + u.message))
  {
    var reply := S.Handle(req, env).reply;
    if reply.JsonReply? {
      assert !C.IsOk(reply.status);
      assert C.Present(Some(reply.body.error));
    }
  }
}

=== FILE: history.dfy ===
/**
 The entry `get_caption` appends to the caption history file (app.py), and a
 reader for it that recovers the recorded fields.
 */
module History {
  import opened Wrappers
  import opened Text

  /** The separator line. */
  const RULE := "------------------------------"

  /** The separator is `"-" * 30`. */
  lemma RuleIsThirtyDashes()
    ensures RULE == Repeat('-', 30)
  {
  }

  lemma JoinCons(x: string, rest: seq<string>, sep: char)
    requires |rest| >= 1
    ensures Join([x] + rest, sep) == x + [sep] + Join(rest, sep)
  {
    assert ([x] + rest)[1..] == rest;
  }

  /** One question/answer record. `image` is the saved frame's file name. */
  datatype Entry = Entry(timestamp: string, question: string, answer: string, image: Option<string>)

  /** The text written for one record: a timestamp line, the question, the
      answer, the image line when a file name was assigned, then the dashes
      and an empty line. */
  function Format(e: Entry): string {
    "Timestamp: " + e.timestamp + "\n"
    + "Q: " + e.question + "\n"
    + "A: " + e.answer + "\n"
    + (if e.image.Some? then "Image: " + e.image.value + "\n" else "")
    + RULE + "\n\n"
  }

  /** The lines of a record, in the order they are written; the final two
      empty strings are what follows the two closing line breaks. */
  function Lines(e: Entry): seq<string> {
    ["Timestamp: " + e.timestamp, "Q: " + e.question, "A: " + e.answer]
    + (if e.image.Some? then ["Image: " + e.image.value] else [])
    + [RULE, "", ""]
  }

  /** A record is its lines joined by line breaks. */
  lemma FormatIsLines(e: Entry)
    ensures Format(e) == Join(Lines(e), '\n')
  {
    var t, q, a := "Timestamp: " + e.timestamp, "Q: " + e.question, "A: " + e.answer;
    var image := if e.image.Some? then "Image: " + e.image.value + "\n" else "";
    var last := if e.image.Some? then ["Image: " + e.image.value, RULE, "", ""] else [RULE, "", ""];
    ClosingLines(e.image);
    JoinThree(t, q, a, last);
    assert Lines(e) == [t, q, a] + last;
    Regroup(t, q, a, image + RULE + "\n\n");
  }

  /** The image line (if any) and the closing lines. */
  lemma ClosingLines(image: Option<string>)
    ensures var last := if image.Some? then ["Image: " + image.value, RULE, "", ""] else [RULE, "", ""];
            Join(last, '\n') == (if image.Some? then "Image: " + image.value + "\n" else "") + RULE + "\n\n"
  {
    JoinCons("", [""], '\n');
    JoinCons(RULE, ["", ""], '\n');
    if image.Some? {
      JoinCons("Image: " + image.value, [RULE, "", ""], '\n');
      assert ["Image: " + image.value] + [RULE, "", ""] == ["Image: " + image.value, RULE, "", ""];
    }
  }

  lemma JoinThree(t: string, q: string, a: string, last: seq<string>)
    requires |last| >= 1
    ensures Join([t, q, a] + last, '\n') == t + "\n" + (q + "\n" + (a + "\n" + Join(last, '\n')))
  {
    JoinCons(a, last, '\n');
    JoinCons(q, [a] + last, '\n');
    JoinCons(t, [q] + ([a] + last), '\n');
    assert [t, q, a] + last == [t] + ([q] + ([a] + last));
  }

  lemma Regroup(t: string, q: string, a: string, rest: string)
    ensures t + "\n" + q + "\n" + a + "\n" + rest == t + "\n" + (q + "\n" + (a + "\n" + rest))
  {
  }

  /** `line` with `prefix` removed, when it starts with it. */
  function After(prefix: string, line: string): (r: Option<string>)
    ensures r.Some? ==> line == prefix + r.value
    ensures r.None? <==> !(|prefix| <= |line| && line[..|prefix|] == prefix)
  {
    if |prefix| <= |line| && line[..|prefix|] == prefix then
      assert line == line[..|prefix|] + line[|prefix|..];
      Some(line[|prefix|..])
    else None
  }

  /** Reads one record back from its text. */
  function Parse(text: string): Option<Entry> {
    var ls := Split(text, '\n');
    if |ls| < 6 || ls[|ls| - 3..] != [RULE, "", ""] then None
    else
      var ts := After("Timestamp: ", ls[0]);
      var q := After("Q: ", ls[1]);
      var a := After("A: ", ls[2]);
      if ts.None? || q.None? || a.None? then None
      else if |ls| == 6 then Some(Entry(ts.value, q.value, a.value, None))
      else if |ls| == 7 then
        match After("Image: ", ls[3])
        case Some(f) => Some(Entry(ts.value, q.value, a.value, Some(f)))
        case None => None
      else None
  }

  /** No field of the record contains a line break. */
  predicate SingleLine(e: Entry) {
    '\n' !in e.timestamp && '\n' !in e.question && '\n' !in e.answer
    && (e.image.Some? ==> '\n' !in e.image.value)
  }

  /** Reading a written record gives back the record, as long as no field
      spans several lines. */
  lemma ParseFormat(e: Entry)
    requires SingleLine(e)
    ensures Parse(Format(e)) == Some(e)
  {
    FormatIsLines(e);
    var ls := Lines(e);
    assert '\n' !in RULE;
    forall i | 0 <= i < |ls| ensures '\n' !in ls[i] {
    }
    SplitJoin(ls, '\n');
    assert Split(Format(e), '\n') == ls;
    assert ls[|ls| - 3..] == [RULE, "", ""];
    assert After("Timestamp: ", ls[0]) == Some(e.timestamp) by {
      assert ls[0][..|"Timestamp: "|] == "Timestamp: ";
    }
    assert After("Q: ", ls[1]) == Some(e.question) by {
      assert ls[1][..|"Q: "|] == "Q: ";
    }
    assert After("A: ", ls[2]) == Some(e.answer) by {
      assert ls[2][..|"A: "|] == "A: ";
    }
    if e.image.Some? {
      assert After("Image: ", ls[3]) == Some(e.image.value) by {
        assert ls[3][..|"Image: "|] == "Image: ";
      }
    }
  }
}

=== FILE: json.dfy ===
/** A JSON value as the server sees it after `request.get_json()`, and
    Python's truthiness of such a value. */
module Json {

  /** Numbers are integers only; floating point is not modelled. */
  datatype JsonValue =
    | JNull
    | JBool(b: bool)
    | JNumber(n: int)
    | JString(s: string)
    | JArray(items: seq<JsonValue>)
    | JObject(fields: map<string, JsonValue>)

  /** `bool(v)` in Python: `None`, `False`, `0`, `""`, `[]` and `{}` are
      false, everything else is true. */
  predicate Truthy(v: JsonValue) {
    match v
    case JNull => false
    case JBool(b) => b
    case JNumber(n) => n != 0
    case JString(s) => s != []
    case JArray(items) => items != []
    case JObject(fields) => fields != map[]
  }

  /** The six falsy values, listed: every other JSON value is truthy. */
  lemma FalsyValues(v: JsonValue)
    ensures !Truthy(v) <==> v in {JNull, JBool(false), JNumber(0), JString([]), JArray([]), JObject(map[])}
  {
  }
}

=== FILE: server.dfy ===
/**
 The `/api/caption` handler of app.py (`get_caption`): request validation,
 the payload sent to the Ollama server, normalisation of the model's reply,
 the mapping of upstream failures to HTTP replies, and the history record.

 Flask, `requests`, base64 decoding, the clock and the file system are
 parameters: the parsed request, the upstream outcome, whether the image and
 history files could be written, and the two timestamp strings.
 */
module CaptionServer {
  import opened Wrappers
  import opened Text
  import opened Json
  import History

  const OLLAMA_API_URL := "http://localhost:11434/api/generate"
  const MODEL := "gemma3:4b"
  // The texts whose characters the proofs inspect are built from words:
  // facts about a concatenation of short literals stay cheap to prove.
  const DEFAULT_PROMPT := "Describe " + "what " + "you " + "see."

  const ERR_NOT_JSON := "Invalid request: Content-Type must be application/json"
  const ERR_NO_IMAGE := "No image data provided"
  const ERR_NO_PROMPT := "Prompt is required"
  const ERR_TIMEOUT := "The request to the Ollama server timed out."
  const ERR_CONNECTION := "Could not connect to Ollama server at " + OLLAMA_API_URL + "."
  const ERR_OLLAMA_PREFIX := "Ollama API error: "
  const ERR_UNEXPECTED_PREFIX := "An unexpected server error occurred: "

  const NO_DESCRIPTION := "No " + "description " + "could " + "be " + "generated " + "for " + "this " + "frame."
  const MODEL_REFUSED := "Model " + "could " + "not " + "process " + "the " + "image " + "as " + "requested."
  const REFUSAL_SORRY := "Sorry, I can't"
  const REFUSAL_UNABLE := "I am unable to"

  /* ----------------------------------------------------------------------
     Inputs and outputs
     ---------------------------------------------------------------------- */

  /** The request as Flask sees it: whether its content type is JSON, and
      the parsed body (`None` when the body is not valid JSON). */
  datatype Incoming = Incoming(isJson: bool, body: Option<JsonValue>)

  datatype ReplyBody = ErrorBody(error: string) | CaptionBody(caption: string)

  /** A JSON reply from the handler, or an error page Flask produces itself
      (a rejected body, or an exception the handler does not catch). */
  datatype Reply = JsonReply(status: nat, body: ReplyBody) | FrameworkError(status: nat)

  /** The JSON object posted to Ollama's `generate` endpoint. */
  datatype Payload = Payload(model: string, prompt: string, images: seq<JsonValue>, stream: bool)

  /** How saving the frame went; every outcome is only logged. */
  datatype ImageSave = Saved | DecodeFailed | WriteFailed

  /** The body of an HTTP error reply from Ollama, as `response.json()`
      reads it: an object with or without an `error` string, other JSON, or
      no JSON at all. */
  datatype ErrorResponseBody = JsonObjectBody(error: Option<string>) | JsonOtherBody | NotJsonBody

  /** What the call to Ollama does. `Answered` is a 2xx reply whose JSON
      object has (or lacks) a string `response`; `Unexpected` is any other
      exception in the `try` block, with its `str()`. */
  datatype Upstream =
    | Answered(response: Option<string>)
    | Timeout
    | ConnectionFailed
    | HttpError(status: nat, body: ErrorResponseBody, text: string, exceptionText: string)
    | Unexpected(message: string)

  /** Everything the handler learns from the outside world besides the
      request: the two `strftime` results, the file writes and Ollama. */
  datatype Environment = Environment(
    imageStamp: string,
    historyStamp: string,
    imageSave: ImageSave,
    upstream: Upstream,
    historyWritable: bool)

  /** The reply, the payload sent to Ollama (if any), the image file written
      (if any) and the history text appended (if any). */
  datatype Outcome = Outcome(reply: Reply, payload: Option<Payload>, savedImage: Option<string>, history: Option<string>)

  /* ----------------------------------------------------------------------
     Validation
     ---------------------------------------------------------------------- */

  /** `data.get('image_data')`. */
  function ImageField(fields: map<string, JsonValue>): JsonValue {
    if "image_data" in fields then fields["image_data"] else JNull
  }

  /** `data.get('prompt', 'Describe what you see.')`, before stripping. */
  function PromptField(fields: map<string, JsonValue>): JsonValue {
    if "prompt" in fields then fields["prompt"] else JString(DEFAULT_PROMPT)
  }

  datatype Validation = Accepted(image: JsonValue, prompt: string) | Rejected(reply: Reply)

  /** A JSON object body whose `prompt` is absent or a string, so that
      `.strip()` succeeds. */
  predicate WellFormedBody(req: Incoming) {
    req.isJson && req.body.Some? && req.body.value.JObject?
    && PromptField(req.body.value.fields).JString?
  }

  /** The content-type check, reading the two fields (the
      prompt is stripped before anything is checked) and the two 400s. */
  function Validate(req: Incoming): (v: Validation)
    ensures !req.isJson ==> v == Rejected(JsonReply(415, ErrorBody(ERR_NOT_JSON)))
    ensures req.isJson && !WellFormedBody(req) ==> v.Rejected? && v.reply.FrameworkError?
    ensures v.Accepted? <==>
              WellFormedBody(req) && Truthy(ImageField(req.body.value.fields))
              && Trim(PromptField(req.body.value.fields).s) != []
    ensures v.Accepted? ==>
              v.image == ImageField(req.body.value.fields)
              && v.prompt == Trim(PromptField(req.body.value.fields).s)
              && Truthy(v.image) && v.prompt != [] && Trimmed(v.prompt)
    ensures WellFormedBody(req) && !Truthy(ImageField(req.body.value.fields)) ==>
              v == Rejected(JsonReply(400, ErrorBody(ERR_NO_IMAGE)))
    ensures WellFormedBody(req) && Truthy(ImageField(req.body.value.fields))
            && Trim(PromptField(req.body.value.fields).s) == [] ==>
              v == Rejected(JsonReply(400, ErrorBody(ERR_NO_PROMPT)))
  {
    if !req.isJson then Rejected(JsonReply(415, ErrorBody(ERR_NOT_JSON)))
    // get_json() on an unparsable body: Flask answers 400 itself
    else if req.body.None? then Rejected(FrameworkError(400))
    // .get on a non-object (list, string, null, ...): AttributeError
    else if !req.body.value.JObject? then Rejected(FrameworkError(500))
    else
      var fields := req.body.value.fields;
      var raw := PromptField(fields);
      // .strip() on a non-string prompt (including JSON null): AttributeError
      if !raw.JString? then Rejected(FrameworkError(500))
      else
        var prompt := Trim(raw.s);
        var image := ImageField(fields);
        if !Truthy(image) then Rejected(JsonReply(400, ErrorBody(ERR_NO_IMAGE)))
        else if prompt == [] then Rejected(JsonReply(400, ErrorBody(ERR_NO_PROMPT)))
        else Accepted(image, prompt)
  }

  /** With no `prompt` field the default instruction is used as it is. */
  lemma DefaultPromptUsed(fields: map<string, JsonValue>)
    requires "prompt" !in fields && Truthy(ImageField(fields))
    ensures Validate(Incoming(true, Some(JObject(fields)))) == Accepted(ImageField(fields), DEFAULT_PROMPT)
  {
    var d := DEFAULT_PROMPT;
    assert Trim(d) == d by {
      assert d[0] == 'D' && d[|d| - 1] == '.';
      assert [] + d + [] == d;
      TrimOf([], d, []);
    }
    assert PromptField(fields) == JString(d);
  }

  /** A body without `image_data` is answered "No image data provided",
      whenever the prompt is a string or absent. */
  lemma MissingImageRejected(fields: map<string, JsonValue>)
    requires "image_data" !in fields
    requires "prompt" !in fields || fields["prompt"].JString?
    ensures Validate(Incoming(true, Some(JObject(fields)))) == Rejected(JsonReply(400, ErrorBody(ERR_NO_IMAGE)))
  {
  }

  /** Because the prompt is stripped before the image is checked, a prompt
      that is present but not a string (JSON `null`, a number, ...) makes the
      handler fail with an unhandled exception even when the image is
      missing too: the "No image data provided" reply is not reached. */
  lemma NonStringPromptPreemptsImageCheck(fields: map<string, JsonValue>)
    requires "prompt" in fields && !fields["prompt"].JString?
    ensures Validate(Incoming(true, Some(JObject(fields)))) == Rejected(FrameworkError(500))
  {
  }

  /* ----------------------------------------------------------------------
     The model's reply
     ---------------------------------------------------------------------- */

  /** The text contains one of the phrases that mark a refusal. */
  predicate Refusal(text: string) {
    Contains(text, REFUSAL_SORRY) || Contains(text, REFUSAL_UNABLE)
  }

  /** A text is a refusal wherever in it a refusal phrase stands. */
  lemma RefusalPhraseAnywhere(a: string, b: string)
    ensures Refusal(a + REFUSAL_SORRY + b) && Refusal(a + REFUSAL_UNABLE + b)
  {
    var s, u := a + REFUSAL_SORRY + b, a + REFUSAL_UNABLE + b;
    assert s[|a|..|a| + |REFUSAL_SORRY|] == REFUSAL_SORRY;
    assert OccursAt(s, REFUSAL_SORRY, |a|);
    assert u[|a|..|a| + |REFUSAL_UNABLE|] == REFUSAL_UNABLE;
    assert OccursAt(u, REFUSAL_UNABLE, |a|);
  }

  /** The caption from the model's reply: strip it; an empty one becomes a fixed notice, a
      refusal another. The caption returned is never empty, has no
      whitespace at its ends and never carries a refusal phrase. */
  function NormalizeCaption(raw: string): (c: string)
    ensures c != [] && Trimmed(c) && !Refusal(c)
    ensures c == Trim(raw) || c == NO_DESCRIPTION || c == MODEL_REFUSED
    ensures c == Trim(raw) <==> Trim(raw) != [] && !Refusal(Trim(raw))
    ensures Trim(raw) != [] && Refusal(Trim(raw)) ==> c == MODEL_REFUSED
    ensures Trim(raw) == [] ==> c == NO_DESCRIPTION
  {
    var caption := Trim(raw);
    if caption == [] then
      NoticesAreNotRefusals();
      NO_DESCRIPTION
    else if Refusal(caption) then
      NoticesAreNotRefusals();
      MODEL_REFUSED
    else caption
  }

  /** Neither fixed notice contains a capital `S` or a capital `I`, so
      neither contains a refusal phrase. */
  lemma NoticesAreNotRefusals()
    ensures Trimmed(NO_DESCRIPTION) && Trimmed(MODEL_REFUSED)
    ensures !Refusal(NO_DESCRIPTION) && !Refusal(MODEL_REFUSED)
  {
    assert REFUSAL_SORRY[0] == 'S' && REFUSAL_UNABLE[0] == 'I';
    NoDescriptionLacksCapitals();
    ModelRefusedLacksCapitals();
    MissingCharacter(NO_DESCRIPTION, REFUSAL_SORRY, 'S');
    MissingCharacter(NO_DESCRIPTION, REFUSAL_UNABLE, 'I');
    MissingCharacter(MODEL_REFUSED, REFUSAL_SORRY, 'S');
    MissingCharacter(MODEL_REFUSED, REFUSAL_UNABLE, 'I');
  }

  lemma NoDescriptionLacksCapitals()
    ensures Trimmed(NO_DESCRIPTION) && 'S' !in NO_DESCRIPTION && 'I' !in NO_DESCRIPTION
  {
  }

  lemma ModelRefusedLacksCapitals()
    ensures Trimmed(MODEL_REFUSED) && 'S' !in MODEL_REFUSED && 'I' !in MODEL_REFUSED
  {
  }

  /** A caption the server returns is left alone if it is normalised again. */
  lemma NormalizeCaptionIdempotent(raw: string)
    ensures NormalizeCaption(NormalizeCaption(raw)) == NormalizeCaption(raw)
  {
    var c := NormalizeCaption(raw);
    assert [] + c + [] == c;
    TrimOf([], c, []);
  }

  /* ----------------------------------------------------------------------
     Upstream failures
     ---------------------------------------------------------------------- */

  /** `raise_for_status` raises only for 4xx and 5xx statuses. */
  predicate WellFormedUpstream(u: Upstream) {
    u.HttpError? ==> 400 <= u.status <= 599
  }

  /** The `error_detail` of an Ollama HTTP error, or `None`
      when reading it raises an exception the handler does not catch. */
  function HttpErrorDetail(body: ErrorResponseBody, text: string, exceptionText: string): (d: Option<string>)
    ensures body.JsonObjectBody? && body.error.Some? ==> d == body.error
    ensures body.JsonObjectBody? && body.error.None? ==> d == Some(text)
    ensures body.NotJsonBody? ==> d == Some(if text != [] then text else exceptionText)
    ensures d.None? <==> body.JsonOtherBody?
  {
    match body
    case JsonObjectBody(error) => Some(error.GetOr(text))
    // `.get` on a JSON value that is not an object: AttributeError inside the except clause
    case JsonOtherBody => None
    case NotJsonBody => Some(if text != [] then text else exceptionText)
  }

  /** The reply for each kind of failure of the Ollama call. */
  function FailureReply(u: Upstream): (r: Reply)
    requires !u.Answered?
    ensures u.Timeout? ==> r == JsonReply(504, ErrorBody(ERR_TIMEOUT))
    ensures u.ConnectionFailed? ==> r == JsonReply(503, ErrorBody(ERR_CONNECTION))
    ensures u.HttpError? && !u.body.JsonOtherBody? ==>
              r.JsonReply? && r.status == u.status && r.body.ErrorBody?
              && r.body.error == ERR_OLLAMA_PREFIX + HttpErrorDetail(u.body, u.text, u.exceptionText).value
    ensures u.HttpError? && u.body.JsonOtherBody? ==> r == FrameworkError(500)
    ensures u.Unexpected? ==> r == JsonReply(500, ErrorBody(ERR_UNEXPECTED_PREFIX + u.message))
    ensures WellFormedUpstream(u) ==> 400 <= r.status <= 599
    ensures r.JsonReply? ==> r.body.ErrorBody? && r.body.error != []
  {
    match u
    case Timeout => JsonReply(504, ErrorBody(ERR_TIMEOUT))
    case ConnectionFailed => JsonReply(503, ErrorBody(ERR_CONNECTION))
    case HttpError(status, body, text, exceptionText) =>
      (match HttpErrorDetail(body, text, exceptionText)
       case Some(detail) => JsonReply(status, ErrorBody(ERR_OLLAMA_PREFIX + detail))
       case None => FrameworkError(500))
    case Unexpected(message) => JsonReply(500, ErrorBody(ERR_UNEXPECTED_PREFIX + message))
  }

  /* ----------------------------------------------------------------------
     The handler
     ---------------------------------------------------------------------- */

  /** Python's `s[:-3]`. */
  function DropLast3(s: string): (r: string)
    ensures |r| == if |s| >= 3 then |s| - 3 else 0
    ensures r == s[..|r|]
  {
    if |s| >= 3 then s[..|s| - 3] else []
  }

  /** `frame_<timestamp without its last three digits>.jpg`. */
  function ImageFilename(stamp: string): string {
    "frame_" + DropLast3(stamp) + ".jpg"
  }

  /** The `%f` field of the stamp has six digits (microseconds); the file
      name keeps the stamp up to its first three (milliseconds). */
  lemma ImageFilenameKeepsMilliseconds(prefix: string, micros: string)
    requires |micros| == 3
    ensures ImageFilename(prefix + micros) == "frame_" + prefix + ".jpg"
  {
    assert (prefix + micros)[..|prefix|] == prefix;
  }

  /** `get_caption`. The image file name is always assigned (nothing before
      it in the `try` block can fail), so the history record always names
      it; failures to decode or save the image and to append the history
      are only logged. */
  function Handle(req: Incoming, env: Environment): (out: Outcome)
    ensures out.payload.Some? <==> Validate(req).Accepted?
    ensures out.payload.Some? ==>
              out.payload.value == Payload(MODEL, Validate(req).prompt, [Validate(req).image], false)
    ensures Validate(req).Rejected? ==> out == Outcome(Validate(req).reply, None, None, None)
    ensures out.savedImage.Some? <==> Validate(req).Accepted? && env.imageSave.Saved?
    ensures out.history.Some? <==> Validate(req).Accepted? && env.upstream.Answered? && env.historyWritable
    ensures out.reply.JsonReply? && out.reply.body.CaptionBody? ==>
              out.reply.status == 200 && out.reply.body.caption != [] && Trimmed(out.reply.body.caption)
    ensures WellFormedUpstream(env.upstream) && out.reply.JsonReply? && out.reply.body.ErrorBody? ==>
              !(200 <= out.reply.status <= 299) && out.reply.body.error != []
    ensures Validate(req).Accepted? && env.upstream.Answered? ==>
              out.reply == JsonReply(200, CaptionBody(NormalizeCaption(env.upstream.response.GetOr([]))))
    ensures Validate(req).Accepted? && !env.upstream.Answered? ==> out.reply == FailureReply(env.upstream)
    ensures out.history.Some? ==>
              out.reply.JsonReply? && out.reply.body.CaptionBody?
              && out.history.value == History.Format(History.Entry(env.historyStamp, Validate(req).prompt,
                                                                    out.reply.body.caption,
                                                                    Some(ImageFilename(env.imageStamp))))
    ensures out.savedImage.Some? ==> out.savedImage.value == ImageFilename(env.imageStamp)
  {
    match Validate(req)
    case Rejected(reply) => Outcome(reply, None, None, None)
    case Accepted(image, prompt) =>
      var filename := ImageFilename(env.imageStamp);
      var saved := if env.imageSave.Saved? then Some(filename) else None;
      var payload := Payload(MODEL, prompt, [image], false);
      match env.upstream
      case Answered(response) =>
        var caption := NormalizeCaption(response.GetOr([]));
        var entry := History.Entry(env.historyStamp, prompt, caption, Some(filename));
        var history := if env.historyWritable then Some(History.Format(entry)) else None;
        Outcome(JsonReply(200, CaptionBody(caption)), Some(payload), saved, history)
      case _ =>
        Outcome(FailureReply(env.upstream), Some(payload), saved, None)
  }

  /** A non-JSON request is answered 415 and nothing else happens. */
  lemma NonJsonRequestDoesNothing(req: Incoming, env: Environment)
    requires !req.isJson
    ensures Handle(req, env) == Outcome(JsonReply(415, ErrorBody(ERR_NOT_JSON)), None, None, None)
  {
  }

  /** Whether the image could be decoded and saved changes neither the
      reply, nor the payload, nor the history record. */
  lemma ImageSaveIsSwallowed(req: Incoming, env: Environment, other: ImageSave)
    ensures var a := Handle(req, env);
            var b := Handle(req, env.(imageSave := other));
            a.reply == b.reply && a.payload == b.payload && a.history == b.history
  {
  }

  /** A failure to append the history changes nothing the client sees. */
  lemma HistoryFailureIsSwallowed(req: Incoming, env: Environment)
    ensures Handle(req, env.(historyWritable := false)).reply == Handle(req, env).reply
    ensures Handle(req, env.(historyWritable := false)).history.None?
  {
  }

  /** The history record holds, in order, the timestamp, the stripped
      prompt, the caption returned and the image file name: reading it back
      gives exactly those, when none of them spans several lines. */
  lemma HistoryRecordsExchange(req: Incoming, env: Environment)
    requires Validate(req).Accepted? && env.upstream.Answered? && env.historyWritable
    requires '\n' !in env.historyStamp && '\n' !in env.imageStamp
    requires '\n' !in Validate(req).prompt && '\n' !in NormalizeCaption(env.upstream.response.GetOr([]))
    ensures Handle(req, env).reply.JsonReply?
    ensures History.Parse(Handle(req, env).history.value) ==
              Some(History.Entry(env.historyStamp, Validate(req).prompt, Handle(req, env).reply.body.caption,
                                 Some(ImageFilename(env.imageStamp))))
  {
    var v := Validate(req);
    var out := Handle(req, env);
    var caption := NormalizeCaption(env.upstream.response.GetOr([]));
    var name := ImageFilename(env.imageStamp);
    var e := History.Entry(env.historyStamp, v.prompt, caption, Some(name));
    assert out.history == Some(History.Format(e)) && out.reply.body.caption == caption;
    FilenameIsSingleLine(env.imageStamp);
    History.ParseFormat(e);
  }

  lemma FilenameIsSingleLine(stamp: string)
    requires '\n' !in stamp
    ensures '\n' !in ImageFilename(stamp)
  {
    var stem := DropLast3(stamp);
    assert forall c :: c in stem ==> c in stamp;
  }
}

=== FILE: text.dfy ===
/**
 String helpers the client and the server both rely on: whitespace trimming
 (JavaScript `trim`, Python `strip`), JavaScript `parseInt(_, 10)`,
 `split` on a separator character, substring search (Python `in`) and the
 decimal rendering of a natural number.
 */
module Text {
  import opened Wrappers

  /* ----------------------------------------------------------------------
     Whitespace and trimming
     ---------------------------------------------------------------------- */

  /** The whitespace characters both `String.prototype.trim` and `str.strip`
      remove, restricted to ASCII. */
  predicate IsSpace(c: char) {
    c == ' ' || c == '\t' || c == '\n' || c == '\r' || c == '\U{B}' || c == '\U{C}'
  }

  predicate AllSpace(s: string) {
    forall i :: 0 <= i < |s| ==> IsSpace(s[i])
  }

  /** A string with no whitespace at either end. */
  predicate Trimmed(s: string) {
    s == [] || (!IsSpace(s[0]) && !IsSpace(s[|s| - 1]))
  }

  /** Number of whitespace characters at the front of `s`. */
  function LeadingSpaces(s: string): (k: nat)
    ensures k <= |s|
    ensures AllSpace(s[..k])
    ensures k < |s| ==> !IsSpace(s[k])
  {
    if |s| == 0 || !IsSpace(s[0]) then 0
    else
      var k' := LeadingSpaces(s[1..]);
      assert s[1..][..k'] == s[1..k' + 1];
      k' + 1
  }

  /** Number of whitespace characters at the end of `s`. */
  function TrailingSpaces(s: string): (k: nat)
    ensures k <= |s|
    ensures AllSpace(s[|s| - k..])
    ensures k < |s| ==> !IsSpace(s[|s| - k - 1])
  {
    if |s| == 0 || !IsSpace(s[|s| - 1]) then 0
    else
      var t := s[..|s| - 1];
      var k' := TrailingSpaces(t);
      assert s[|s| - (k' + 1)..] == t[|t| - k'..] + [s[|s| - 1]];
      k' + 1
  }

  /** Drops leading whitespace (the first step of `parseInt`). */
  function TrimStart(s: string): (r: string)
    ensures r == [] || !IsSpace(r[0])
    ensures |r| <= |s| && r == s[|s| - |r|..]
    ensures AllSpace(s[..|s| - |r|])
  {
    s[LeadingSpaces(s)..]
  }

  /** `s.trim()` in JavaScript, `s.strip()` in Python. */
  function Trim(s: string): (r: string)
    ensures Trimmed(r)
    ensures |r| <= |s|
    ensures r == [] <==> AllSpace(s)
  {
    var t := TrimStart(s);
    TrimCore(s, t);
    t[..|t| - TrailingSpaces(t)]
  }

  /** The facts behind `Trim`'s contract, for `t` the string without its
      leading whitespace. */
  lemma TrimCore(s: string, t: string)
    requires t == TrimStart(s)
    ensures var r := t[..|t| - TrailingSpaces(t)];
            Trimmed(r) && (r == [] <==> AllSpace(s))
  {
    CutTrimmed(t);
    CutEmptyIffAllSpace(s, t);
  }

  /** Cutting the trailing whitespace off a string that starts with a
      non-space leaves a trimmed string. */
  lemma CutTrimmed(t: string)
    requires t == [] || !IsSpace(t[0])
    ensures Trimmed(t[..|t| - TrailingSpaces(t)])
  {
    var k := TrailingSpaces(t);
    if k < |t| {
      var r := t[..|t| - k];
      assert r[0] == t[0];
      assert r[|r| - 1] == t[|t| - k - 1];
    }
  }

  /** Nothing is left after trimming exactly when the whole input was
      whitespace. */
  lemma CutEmptyIffAllSpace(s: string, t: string)
    requires t == TrimStart(s)
    ensures t[..|t| - TrailingSpaces(t)] == [] <==> AllSpace(s)
  {
    var k := TrailingSpaces(t);
    if k < |t| {
      assert |t[..|t| - k]| > 0;
      assert s[|s| - |t|] == t[0];
    } else {
      assert t[|t| - k..] == t;
      assert |t| == 0;
      assert s[..|s| - |t|] == s;
    }
  }

  lemma {:induction false} LeadingSpacesOf(a: string, t: string)
    requires AllSpace(a)
    requires t == [] || !IsSpace(t[0])
    ensures LeadingSpaces(a + t) == |a|
    decreases |a|
  {
    if |a| > 0 {
      assert (a + t)[1..] == a[1..] + t;
      LeadingSpacesOf(a[1..], t);
    } else {
      assert a + t == t;
    }
  }

  lemma {:induction false} TrailingSpacesOf(t: string, b: string)
    requires AllSpace(b)
    requires t == [] || !IsSpace(t[|t| - 1])
    ensures TrailingSpaces(t + b) == |b|
    decreases |b|
  {
    if |b| > 0 {
      var b' := b[..|b| - 1];
      assert (t + b)[..|t + b| - 1] == t + b';
      TrailingSpacesOf(t, b');
    } else {
      assert t + b == t;
    }
  }

  /** Trimming is characterised by its result: whatever whitespace surrounds
      a string with no whitespace at its ends is exactly what is removed. */
  lemma TrimOf(a: string, m: string, b: string)
    requires AllSpace(a) && AllSpace(b) && Trimmed(m)
    ensures Trim(a + m + b) == m
  {
    var s := a + m + b;
    if m == [] {
      assert s == a + b;
      assert AllSpace(s) by {
        forall i | 0 <= i < |s| ensures IsSpace(s[i]) {
          if i < |a| { assert s[i] == a[i]; } else { assert s[i] == b[i - |a|]; }
        }
      }
    } else {
      assert s == a + (m + b);
      LeadingSpacesOf(a, m + b);
      var t := TrimStart(s);
      assert t == m + b;
      TrailingSpacesOf(m, b);
      assert t[..|t| - |b|] == m;
    }
  }

  /** Trimming twice is trimming once. */
  lemma TrimIdempotent(s: string)
    ensures Trim(Trim(s)) == Trim(s)
  {
    var m := Trim(s);
    assert [] + m + [] == m;
    TrimOf([], m, []);
  }

  /* ----------------------------------------------------------------------
     Decimal digits, `parseInt(_, 10)` and number-to-string
     ---------------------------------------------------------------------- */

  predicate IsDigit(c: char) {
    '0' <= c <= '9'
  }

  predicate AllDigits(s: string) {
    forall i :: 0 <= i < |s| ==> IsDigit(s[i])
  }

  function DigitChar(d: nat): (c: char)
    requires d < 10
    ensures IsDigit(c)
  {
    ('0' as int + d) as char
  }

  /** Number of decimal digits at the front of `s`. */
  function DigitRun(s: string): (k: nat)
    ensures k <= |s|
    ensures AllDigits(s[..k])
    ensures k < |s| ==> !IsDigit(s[k])
  {
    if |s| == 0 || !IsDigit(s[0]) then 0
    else
      var k' := DigitRun(s[1..]);
      assert s[1..][..k'] == s[1..k' + 1];
      k' + 1
  }

  /** The value of a string of decimal digits, most significant first. */
  function Value(d: string): nat
    requires AllDigits(d)
  {
    if |d| == 0 then 0
    else Value(d[..|d| - 1]) * 10 + (d[|d| - 1] as int - '0' as int)
  }

  /** The decimal rendering of `n` (JavaScript `String(n)` / a template
      literal, for a non-negative integer). */
  function DecimalText(n: nat): (r: string)
    ensures |r| >= 1 && AllDigits(r)
    ensures Value(r) == n
    ensures r[0] == '0' ==> n == 0
  {
    if n < 10 then
      [DigitChar(n)]
    else
      var p := DecimalText(n / 10);
      var r := p + [DigitChar(n % 10)];
      assert r[..|r| - 1] == p;
      r
  }

  /** `parseInt(s, 10)`: skip leading whitespace, take an optional sign and
      the longest run of decimal digits; no digits is `NaN`, here `None`. */
  function ParseInt(s: string): Option<int> {
    var t := TrimStart(s);
    var negative := |t| > 0 && t[0] == '-';
    var u := if |t| > 0 && (t[0] == '-' || t[0] == '+') then t[1..] else t;
    var k := DigitRun(u);
    var magnitude: int := if k == 0 then 0 else Value(u[..k]);
    if k == 0 then None
    else if negative then Some(-magnitude)
    else Some(magnitude)
  }

  lemma {:induction false} DigitRunOf(d: string, rest: string)
    requires AllDigits(d)
    requires rest == [] || !IsDigit(rest[0])
    ensures DigitRun(d + rest) == |d|
    decreases |d|
  {
    if |d| > 0 {
      assert (d + rest)[1..] == d[1..] + rest;
      DigitRunOf(d[1..], rest);
    } else {
      assert d + rest == rest;
    }
  }

  /** `parseInt` reads back the decimal rendering of a number, whatever
      non-digit text follows it (as in `"2000ms"`). */
  lemma ParseIntDecimal(n: nat, rest: string)
    requires rest == [] || !IsDigit(rest[0])
    ensures ParseInt(DecimalText(n) + rest) == Some(n)
  {
    var d := DecimalText(n);
    var s := d + rest;
    assert s[0] == d[0] && IsDigit(s[0]);
    LeadingSpacesOf([], s);
    assert [] + s == s;
    assert TrimStart(s) == s;
    DigitRunOf(d, rest);
    assert s[..|d|] == d;
    var t := TrimStart(s);
    assert t == s && !(t[0] == '-' || t[0] == '+');
    assert t[..DigitRun(t)] == d;
  }

  /** `parseInt` skips leading whitespace and reads one sign: whitespace,
      then `-` or `+`, then a run of digits reads back as the run's value,
      negated after `-`. */
  lemma ParseIntSigned(ws: string, d: string, rest: string)
    requires AllSpace(ws)
    requires |d| >= 1 && AllDigits(d)
    requires rest == [] || !IsDigit(rest[0])
    ensures ParseInt(ws + "-" + d + rest).Some? && ParseInt(ws + "-" + d + rest).value == -(Value(d) as int)
    ensures ParseInt(ws + "+" + d + rest) == Some(Value(d))
  {
    AfterSign(ws, '-', d, rest);
    AfterSign(ws, '+', d, rest);
  }

  /** What `parseInt` sees after the whitespace and the sign. */
  lemma AfterSign(ws: string, sign: char, d: string, rest: string)
    requires AllSpace(ws) && !IsSpace(sign) && !IsDigit(sign)
    requires |d| >= 1 && AllDigits(d)
    requires rest == [] || !IsDigit(rest[0])
    ensures var t := TrimStart(ws + [sign] + d + rest);
            && t == [sign] + (d + rest) && t[0] == sign && t[1..] == d + rest
            && DigitRun(t[1..]) == |d| && t[1..][..|d|] == d
  {
    var u := d + rest;
    var t := [sign] + u;
    Reassociate(ws, [sign], d, rest);
    LeadingSpacesOf(ws, t);
    assert t[1..] == u;
    DigitRunOf(d, rest);
    assert u[..|d|] == d;
  }

  lemma Reassociate(a: string, b: string, c: string, e: string)
    ensures a + b + c + e == a + (b + (c + e))
  {
  }

  /** A string without a single decimal digit parses to `NaN`. */
  lemma ParseIntNoDigits(s: string)
    requires forall i :: 0 <= i < |s| ==> !IsDigit(s[i])
    ensures ParseInt(s) == None
  {
    var t := TrimStart(s);
    var u := if |t| > 0 && (t[0] == '-' || t[0] == '+') then t[1..] else t;
    if |u| > 0 {
      assert u[0] == s[|s| - |u|];
    }
  }

  /* ----------------------------------------------------------------------
     Splitting on a separator character
     ---------------------------------------------------------------------- */

  /** Glues pieces back together with `sep` between neighbours. */
  function Join(pieces: seq<string>, sep: char): string
    requires |pieces| >= 1
  {
    if |pieces| == 1 then pieces[0]
    else pieces[0] + [sep] + Join(pieces[1..], sep)
  }

  /** `s.split(sep)` for a one-character separator: the fields between
      separators, empty ones included; always at least one field. */
  function Split(s: string, sep: char): (r: seq<string>)
    ensures |r| >= 1
    ensures forall i :: 0 <= i < |r| ==> sep !in r[i]
    ensures Join(r, sep) == s
  {
    if |s| == 0 then [[]]
    else
      var rest := Split(s[1..], sep);
      if s[0] == sep then
        assert [[]] + rest == [[]] + rest;
        assert ([[]] + rest)[1..] == rest;
        [[]] + rest
      else
        var r := [[s[0]] + rest[0]] + rest[1..];
        assert s == [s[0]] + s[1..];
        assert r[0] == [s[0]] + rest[0];
        assert forall i :: 1 <= i < |r| ==> r[i] == rest[i];
        assert |r| > 1 ==> r[1..] == rest[1..];
        r
  }

  lemma {:induction false} SplitWithoutSeparator(a: string, sep: char)
    requires sep !in a
    ensures Split(a, sep) == [a]
    decreases |a|
  {
    if |a| > 0 {
      assert a[0] in a;
      assert forall c :: c in a[1..] ==> c in a;
      SplitWithoutSeparator(a[1..], sep);
      assert [a[0]] + a[1..] == a;
    }
  }

  /** The first field ends at the first separator. */
  lemma {:induction false} SplitAtSeparator(a: string, sep: char, b: string)
    requires sep !in a
    ensures Split(a + [sep] + b, sep) == [a] + Split(b, sep)
    decreases |a|
  {
    var s := a + [sep] + b;
    if |a| == 0 {
      assert s[0] == sep && s[1..] == b;
    } else {
      assert a[0] in a;
      assert forall c :: c in a[1..] ==> c in a;
      assert s[1..] == a[1..] + [sep] + b;
      SplitAtSeparator(a[1..], sep, b);
      assert [a[0]] + a[1..] == a;
    }
  }

  /** Splitting undoes joining, for pieces that do not contain the
      separator (the converse, `Join(Split(s)) == s`, is part of `Split`'s
      contract). */
  lemma {:induction false} SplitJoin(pieces: seq<string>, sep: char)
    requires |pieces| >= 1
    requires forall i :: 0 <= i < |pieces| ==> sep !in pieces[i]
    ensures Split(Join(pieces, sep), sep) == pieces
    decreases |pieces|
  {
    if |pieces| == 1 {
      SplitWithoutSeparator(pieces[0], sep);
    } else {
      SplitJoin(pieces[1..], sep);
      SplitAtSeparator(pieces[0], sep, Join(pieces[1..], sep));
      assert [pieces[0]] + pieces[1..] == pieces;
    }
  }

  /** `s.split(',')[1]`: the SECOND comma-separated field, or `undefined`
      (here `None`) when `s` has no comma. */
  function SecondField(s: string): (r: Option<string>)
    ensures r.None? <==> ',' !in s
    ensures r.Some? ==> ',' !in r.value
  {
    var p := Split(s, ',');
    if |p| >= 2 then Some(p[1])
    else
      assert Join(p, ',') == p[0];
      None
  }

  /** The second field is the text between the first and the second comma,
      not everything after the first comma. */
  lemma SecondFieldOf(a: string, f: string, rest: string)
    requires ',' !in a && ',' !in f
    ensures SecondField(a + "," + f) == Some(f)
    ensures SecondField(a + "," + f + "," + rest) == Some(f)
  {
    SecondFieldOfLast(a, f);
    SecondFieldOfMiddle(a, f, rest);
  }

  lemma SecondFieldOfLast(a: string, f: string)
    requires ',' !in a && ',' !in f
    ensures SecondField(a + "," + f) == Some(f)
  {
    SplitAtSeparator(a, ',', f);
    SplitWithoutSeparator(f, ',');
    assert Split(a + "," + f, ',') == [a, f];
  }

  lemma SecondFieldOfMiddle(a: string, f: string, rest: string)
    requires ',' !in a && ',' !in f
    ensures SecondField(a + "," + f + "," + rest) == Some(f)
  {
    var tail := f + [','] + rest;
    Reassociate(a, [','], f + [','], rest);
    assert a + "," + f + "," + rest == a + [','] + tail;
    SplitAtSeparator(a, ',', tail);
    SplitAtSeparator(f, ',', rest);
    var p := Split(a + "," + f + "," + rest, ',');
    assert p == [a] + ([f] + Split(rest, ','));
    assert p[1] == f;
  }

  /* ----------------------------------------------------------------------
     Substring search
     ---------------------------------------------------------------------- */

  /** `t` occurs in `s` starting at index `i`. */
  predicate OccursAt(s: string, t: string, i: int) {
    0 <= i && i + |t| <= |s| && s[i..i + |t|] == t
  }

  /** Python's `t in s` on strings. */
  function Contains(s: string, t: string): (b: bool)
    ensures b <==> exists i :: OccursAt(s, t, i)
    decreases |s|
  {
    if |t| <= |s| && s[..|t|] == t then
      assert OccursAt(s, t, 0);
      true
    else if |s| <= |t| then
      false
    else
      var b := Contains(s[1..], t);
      assert forall i :: OccursAt(s[1..], t, i) <==> OccursAt(s, t, i + 1) by {
        forall i | OccursAt(s[1..], t, i) || OccursAt(s, t, i + 1)
          ensures s[1..][i..i + |t|] == s[i + 1..i + 1 + |t|]
        { }
      }
      assert !OccursAt(s, t, 0);
      assert forall i :: OccursAt(s, t, i) ==> OccursAt(s[1..], t, i - 1);
      b
  }

  /** A string cannot contain a pattern that has a character the string
      lacks. */
  lemma MissingCharacter(s: string, t: string, c: char)
    requires c in t && c !in s
    ensures !Contains(s, t)
  {
  }

  /** `"-" * n` in Python. */
  function Repeat(c: char, n: nat): (r: string)
    ensures |r| == n
    ensures forall i :: 0 <= i < n ==> r[i] == c
  {
    if n == 0 then [] else [c] + Repeat(c, n - 1)
  }
}

=== FILE: wrappers.dfy ===
/** The optional-value datatype shared by the client and server models. */
module Wrappers {

  /** `None` stands for JavaScript's `undefined`/`NaN` or Python's `None`,
      depending on where it is used. */
  datatype Option<+T> = None | Some(value: T) {

    /** Returns the value in `Some`, or `default` when `None`. */
    function GetOr(default: T): (r: T)
      ensures Some? ==> r == value
      ensures None? ==> r == default
    {
      match this
      case Some(v) => v
      case None => default
    }
  }
}
